=== FILE: README.md ===
# QAT Engine EC offload, modelled in Dafny

This project models the elliptic-curve glue of the Intel QuickAssist OpenSSL
engine (`qat_ec.c`): ECDH compute-key and key generation, ECDSA sign and
verify, and their front ends. The OpenSSL big-number and curve library, the
QuickAssist SDK and the async-job scheduler are replaced by parameters:

- a set of failing call sites (`fails`) says which allocation or library call
  returns failure;
- a scripted `Device` gives the submit-loop and wait-loop answers, the
  accelerator's verifyResult and the bytes it writes;
- a sequence of draws feeds `BN_rand_range`.

Every branch of the glue is modelled over these parameters, including every
`goto err` exit.

Modules, in dependency order:

- `Common`, `Bytes`: options, big-endian values, minimal big-endian bytes,
  bit lengths.
- `Digest`: truncation of an ECDSA digest to the order's bit length, against a
  reference "leftmost bits" definition (SEC 1 v2 section 4.1.3 step 5).
- `Der`: a DER encoder and a lenient decoder for ECDSA-Sig-Value (RFC 3279
  section 2.2.3, ITU-T X.690), and the verify front end's re-encoding gate.
- `Ledger`: a generic allocation log (acquire and release events) with a
  replay that detects double allocation and double or stray release.
- `Offload`: the submit/retry driver and the completion waiter shared by all
  three requests, in their Blocking and Fiber modes.
- `EcTypes`: curves, keys, points, flat buffers, allocations, failure sites
  and the scripted device.
- `Books`: the allocation books of one builder. Its allocation order is
  ranked, so a resource can only be taken once and in source order. It has
  NULL-checked releases and a generic cleanup block.
- `Params`: big number to flat buffer, the zero-coefficient fix-up, result
  buffers, rejection sampling and result-buffer sizes.
- `Ecdh`, `Ecdsa`: the four builders and their front ends.

Every builder's contract says:

- its allocation log is balanced: each allocation is released exactly once,
  on every path. Two paths of the source leak (see Findings below); the
  builders use the corrected forms, and the forms as written are modelled
  beside them with the leak stated;
- secrets are released only through the cleansing free (k for compute-key,
  k and d for sign, a fresh private key for key generation);
- when a request is submitted, its op-data is the request built from the
  inputs: the field-type tag (prime, else binary), every number field as a
  flat buffer, and for compute-key the empty cofactor h;
- the submit and wait loops behave as their closed forms say;
- the return value is the one the code computes over the modelled
  failures, including the places where it departs from its own comments
  (listed under Left out).

## Model

| member | source | states |
|---|---|---|
| Digest.TruncateDigest | qat_ec.c:893-910 | m is the leftmost min(8·dlen, orderBits) bits of the digest read big-endian, and m < 2^orderBits |
| Digest.KeptLength | qat_ec.c:898-899 | the whole-byte cut keeps every byte of a digest no longer than the order, else ceil(orderBits/8) bytes, which cover orderBits to orderBits+7 bits |
| Digest.KeptBytesThenShift | qat_ec.c:898-910 | when bits remain after the byte cut, the shift is 8 − (orderBits mod 8), and cut then shift equals the leftmost orderBits bits |
| Digest.KeptBytesOnly | qat_ec.c:898-904 | when no bits remain after the byte cut, the kept bytes are exactly the leftmost bits |
| Digest.ShortDigestUsedWhole | qat_ec.c:898-904 | a digest of at most orderBits bits is used whole, as its big-endian value |
| Ecdsa.DigestField | qat_ec.c:893-915 | m is the flat buffer of the leftmost bits of the digest; it fails exactly when the load fails, when a needed shift fails, or when a non-zero m cannot be allocated |
| Ecdsa.SameMessage | qat_ec.c:1273-1293 | sign and verify submit the same m for the same digest and group, and it denotes the leftmost bits |
| Der.DecodeEncodeInteger | qat_ec.c:1156-1159 | INTEGER contents are an unsigned magnitude with a 0x00 pad when its top bit is set; decoding the encoding of x gives back the magnitude of x (x itself when x ≥ 0) |
| Der.EncodeIntegerDropsSign | qat_ec.c:769 | two numbers encode alike exactly when their magnitudes are equal: no sign is written |
| Der.EncodeSignature | qat_ec.c:769 | i2d_ECDSA_SIG: a successful encoding is a SEQUENCE of at least 8 bytes |
| Der.DecodeEncodeSignature | qat_ec.c:1156 | d2i_ECDSA_SIG reads back the magnitudes of every encoded signature (the signature itself when non-negative), whatever bytes follow it |
| Der.CanonicalDecode | qat_ec.c:1156-1161 | whatever the front end accepts re-encodes to exactly the input bytes |
| Der.CanonicalDecodeAcceptsExactlyEncodings | qat_ec.c:1156-1161 | the front end accepts b as sig if and only if sig is non-negative and b is its DER encoding |
| Der.GateIndependentOfDecoder | qat_ec.c:1156-1161 | any two decoders that invert the encoder on non-negative signatures and produce no negative component give the same gate, so leniency in d2i cannot leak through |
| Der.DecodeSignatureInvertsEncoder | qat_ec.c:1156 | the lenient decoder is one of those decoders |
| Der.TrailingBytesRejected | qat_ec.c:1158-1161 | an encoding with trailing bytes is decoded but refused by the length comparison |
| Der.PaddedIntegerRejected | qat_ec.c:1158-1161 | an INTEGER with a redundant 0x00 is decoded but refused, because the DER form of (1, 1) differs from it |
| Der.HighBitNeedsPad | qat_ec.c:1156-1161 | 30 06 02 01 FF 02 01 01 is read as (255, 1), not as a negative r, and refused because the DER form of 255 needs the 0x00 pad |
| Offload.SubmitWithRetry | qat_ec.c:422-456 | the submit loop over a script equals its closed form: what stops it, how many submissions, which sleeps, wakes and pauses |
| Offload.Backoff | qat_ec.c:436-441 | the j-th RETRY sleeps pollInterval + (j mod divisor) |
| Offload.BackoffTotal | qat_ec.c:436-441 | n sleeps add up to between n·poll and n·(poll + divisor − 1) |
| Offload.CeilingBoundsSubmissions | qat_ec.c:441-446 | with a finite ceiling M the loop submits at most max(M, 1) times |
| Offload.BusyThenAccepted | qat_ec.c:430-446 | n RETRY answers then SUCCESS: n+1 submissions, accepted, after the n sleeps of the backoff schedule |
| Offload.CeilingReachedFails | qat_ec.c:441-446 | M RETRY answers with ceiling M: the loop leaves with status RETRY and the request fails as exhausted |
| Offload.EmptyPoolFailsAtOnce | qat_ec.c:423-427 | an empty instance pool fails the request at that pass, after the earlier submissions only |
| Offload.FiberWakeFailureStops | qat_ec.c:447-453 | in Fiber mode a failed wake skips the pause; a failed wake or pause turns the status into FAIL and stops submitting |
| Offload.FiberNeverSleeps | qat_ec.c:436-453 | Fiber mode never sleeps and is never exhausted by a ceiling |
| Offload.WaitForCompletion | qat_ec.c:464-480 | the wait loop leaves at the first observed done; in Fiber mode it pauses every pass and yields exactly on failed pauses, otherwise it only yields |
| Offload.WaitIgnoresPauseResults | qat_ec.c:464-480 | pause failures never change how long the wait lasts: only the done flags decide |
| Ecdsa.SubmitAndWait | qat_ec.c:1018-1087 | nothing is submitted unless the request is assembled and the Fiber setup succeeds; only an accepted request is waited for |
| EcTypes.FlatOfDenotes | qat_ec.c:388-392 | the flat buffer of v stands for v: empty for zero, else big-endian bytes without a leading zero |
| EcTypes.PaddedCoefficientDenotes | qat_ec.c:394-404 | after the fix-up a stands for the coefficient and has length at least 1 |
| EcTypes.CoefficientADenotes | qat_ec.c:956-962 | sign and verify never submit an a of length 0, and a stands for the coefficient if and only if the fix-up byte was not missing |
| Params.ToFlat | qat_ec.c:355-358 | qat_BN_to_FB: it fails only for a non-zero value whose buffer cannot be allocated; the buffer is the value's minimal big-endian bytes; zero allocates nothing |
| Params.FixZeroCoefficient | qat_ec.c:394-404 | a zero a becomes the one byte 0; when that byte cannot be allocated, compute-key fails and sign and verify go on with length 1 and no data |
| Params.PointFields | qat_ec.c:381-382 | a point's two coordinates as flat buffers, failing exactly when a non-zero coordinate cannot be allocated |
| Params.CoefficientFields | qat_ec.c:383-410 | a (fixed up), b and q as flat buffers, failing exactly on a failed conversion or, for compute-key, a failed fix-up |
| Params.ResultBuffers | qat_ec.c:332-352 | both result buffers (header then data) are allocated in order, and it fails exactly when one allocation fails |
| Params.SampleScalar | qat_ec.c:603-608 | the scalar is the first non-zero draw and lies in [1, order − 1]; a failed draw before it fails the sampling |
| Params.EcdhBuflen | qat_ec.c:331 | compute-key's result length is ceil(degree/8) bytes |
| Params.SignBuflen | qat_ec.c:994 | sign's result buffers get as many bytes as the degree has bits, between 8·ceil(degree/8) − 7 and 8·ceil(degree/8) |
| Books.Take | qat_ec.c:286-352 | an allocation comes after everything allocated so far, so no resource is allocated twice, and it is then live |
| Books.Give | qat_ec.c:516-534 | a NULL-checked free releases x exactly when it is live and leaves the log alone otherwise |
| Books.Cleanup | qat_ec.c:515-535 | a cleanup block releases exactly the live members of its list, secrets by cleansing |
| Books.ClosedBalanced | qat_ec.c:515-536 | books with nothing live have a balanced log whose secrets were all cleansed |
| Ledger.RunCounts | qat_ec.c:515-536 | a consistent log acquires each resource at most once and releases it exactly when it is no longer live |
| Ledger.BalancedReleasesOnce | qat_ec.c:515-536 | in a balanced log every acquired resource is released exactly once |
| Ecdh.PointMultiplyOfDenotes | qat_ec.c:299-410 | each submitted number field of compute-key stands for its number, a is never empty, and h is the empty buffer (no cofactor) |
| Ecdh.ExchangePrelude | qat_ec.c:304-352 | the context and both result buffers; it fails exactly when one of their allocations fails |
| Ecdh.ScalarAndPeer | qat_ec.c:355-382 | k and the peer's coordinates as flat buffers of the private key and the peer point |
| Ecdh.OperandFields | qat_ec.c:355-410 | the op-data after the result buffers is the point multiplication of the private key and the peer point, tagged prime exactly for a prime field and binary otherwise |
| Ecdh.AssemblePointMultiply | qat_ec.c:299-410 | on success the op-data is exactly the request k·P over the key's curve: field-type tag, empty h, k, the point, a, b and q; with no failure it succeeds |
| Ecdh.CollectPointMultiply | qat_ec.c:411-514 | success needs an accepted submission, a TRUE verifyResult and (for Y) a length equal to the result length; the outputs are the result buffers and the return value is the X length |
| Ecdh.EcdhCleanup | qat_ec.c:515-535 | compute-key's cleanup leaves nothing live |
| Ecdh.ComputeKey | qat_ec.c:237-537 | -1 without a key, private key or group; the software result for X25519; a balanced log whose k and shared secret are cleansed; the submitted request is k·P with the curve's field-type tag; the return value and outputs as the result length prescribes |
| Ecdh.ComputedPoint | qat_ec.c:653-654 | the coordinates read from compute-key's buffers are below 2^(8·ceil(degree/8)) |
| Ecdh.AfterFailedDraw | qat_ec.c:590-608 | the draws go into the key's own private-key number: after a failed draw only an existing private key can change, and it changes exactly when a zero was drawn first (it then holds 0); the public key and group are untouched |
| Ecdh.KeygenPrelude | qat_ec.c:586-624 | on success the key's private key is the first non-zero draw, in [1, order − 1]; a failure before the draws leaves the key as it was; a failed draw leaves an existing private key holding what the draws wrote into it (0 after a zero draw) |
| Ecdh.CoordinatePair | qat_ec.c:646-651 | two coordinate numbers allocated in order, failing exactly when one allocation fails |
| Ecdh.CoordinateNumbers | qat_ec.c:646-651 | all four coordinate numbers, failing exactly when one allocation fails |
| Ecdh.CoordinateCheck | qat_ec.c:646-712 | succeeds exactly when the four allocations, both loads of the computed coordinates, and the affine set and get succeed, the field is prime or binary and the read-back equals the computed point; the key then gets that public point. A failed load stops it with the numbers still held (corrected form, see Findings) |
| Ecdh.LoadThenCleanupAsWritten | qat_ec.c:646-736 | as written: a failed BN_bin2bn overwrites x_bn (or y_bn) with NULL, the number it was given stays live through the cleanup, and the log does not balance exactly when a load fails after the four allocations |
| Ecdh.PublicPoint | qat_ec.c:626-712 | the request submitted to compute-key is the point multiplication of the private key k and the generator G; on success the public point is what the accelerator wrote for it and the read-back matches; a mismatch on read-back fails key generation |
| Ecdh.KeygenCleanup | qat_ec.c:715-735 | key generation's cleanup leaves nothing live |
| Ecdh.GenerateKey | qat_ec.c:547-737 | 0 without a key or group; on success the key holds a fresh private key k in [1, order − 1] and the read-back public point, and the request offloaded is k·G (also whenever any request was submitted); a failed draw gives 0 and hands back the key as the draws left it; a mismatch gives 0; the log balances (with the corrected coordinate loads) and a new private key is cleansed |
| Ecdsa.SignOpOfDenotes | qat_ec.c:885-992 | each field of a sign request stands for its number: m for the leftmost digest bits, and a unless the fix-up byte was missing |
| Ecdsa.SignatureFrom | qat_ec.c:1097-1098 | r and s are the result buffers read as big-endian numbers, below 2^(8·buflen); a load that fails leaves its component 0 and the signature is still returned |
| Ecdsa.FailedLoadOutOfRange | qat_ec.c:1097-1098 | a signature with a component whose load failed is one verify's range pre-check rejects, whatever the order |
| Ecdsa.NewComponents | qat_ec.c:833-834 | each of r and s exists exactly when its BN_new succeeds |
| Ecdsa.AttachAsWritten | qat_ec.c:833-839 | as written: both are handed to the signature when both exist, and otherwise the one that exists stays live |
| Ecdsa.AttachAsWrittenLeaks | qat_ec.c:833-839 | when only s fails, r is left live and the log does not balance |
| Ecdsa.AttachComponents | qat_ec.c:833-839 | corrected: the attach succeeds exactly when both exist, and nothing stays live either way |
| Ecdsa.AttachComponentsCorrects | qat_ec.c:833-839 | the corrected attach always balances and agrees with the source when both allocations succeed |
| Ecdsa.KeyAndDigest | qat_ec.c:841-915 | the context, d as the private key's flat buffer and m as the truncated digest, succeeding when nothing fails and the order is not zero |
| Ecdsa.CurveFields | qat_ec.c:924-968 | the generator's coordinates, a (fixed up, a failed fix-up not aborting), b and q, in order |
| Ecdsa.NonceFields | qat_ec.c:970-992 | k and n are the flat buffers of the pair the nonce choice selects |
| Ecdsa.NonceAndBuffers | qat_ec.c:970-1016 | k and n of the selected pair, then both result buffers |
| Ecdsa.SignScalars | qat_ec.c:841-922 | d and m as above, and the nonce is the first non-zero draw in [1, order − 1] |
| Ecdsa.SignOperands | qat_ec.c:924-1016 | every field after m, as the sign request over the key's curve prescribes |
| Ecdsa.AssembleSign | qat_ec.c:841-1016 | on success the op-data is exactly the sign request of the key, digest and selected pair, with the nonce drawn by rejection; k and n are the caller's kinv and r when both are given, and otherwise the drawn nonce and the order |
| Ecdsa.SignCleanup | qat_ec.c:1102-1131 | the signature object is handed over on success and freed otherwise, and nothing stays live |
| Ecdsa.DoSign | qat_ec.c:775-1135 | NULL without group, key parts or generator; balanced books with k and d cleansed; the submitted request is the sign request; a signature exactly when the accelerator accepted and verified, read from buffers of degree bytes; r and s have the books of the corrected attach |
| Ecdsa.Sign | qat_ec.c:758-772 | 1 with the DER encoding and its length, or 0 with length 0; the encoding is accepted back by the verify front end as the same signature |
| Ecdsa.RangeRejectsOutside | qat_ec.c:1264-1271 | the pre-check (zero, negative, magnitude not below the order) rejects exactly the r, s outside [1, order − 1] |
| Ecdsa.VerifyPrelude | qat_ec.c:1215-1262 | the context; it fails exactly when the context, its numbers or the order query fail, a zero order counting as a failed query |
| Ecdsa.SignatureFields | qat_ec.c:1346-1361 | n, r and s as the flat buffers of the order and the signature |
| Ecdsa.KeyFields | qat_ec.c:1346-1371 | n, r, s and the public key's coordinates as flat buffers |
| Ecdsa.CurveAndKey | qat_ec.c:1295-1371 | every field after m, as the verify request prescribes |
| Ecdsa.AssembleVerify | qat_ec.c:1273-1371 | on success the op-data is exactly the verify request of digest, key and signature |
| Ecdsa.VerifyCleanup | qat_ec.c:1447-1466 | verify's cleanup leaves nothing live |
| Ecdsa.DoVerify | qat_ec.c:1170-1468 | 0 exactly when the range pre-check is reached and rejects, with nothing submitted; 1 exactly when the accelerator confirms; -1 otherwise; the submitted request is the verify request; the log balances |
| Ecdsa.Verify | qat_ec.c:1144-1167 | -1 unless the signature object, the decode's and the re-encoding's allocations succeed and the input is exactly the DER encoding of a signature; otherwise do-verify's result, with 0 and 1 as above |

## Left out

- Method-table registration, the compile-time ECDSA/ECDH switches and the
  FIPS branch (qat_ec.c:155-226, 564-567): library registration glue.
- The completion callbacks (qat_ec.c:229-235, 740-755): only their effect is
  modelled, through the device's done flags and verifyResult.
- The SDK calls (`cpaCyEcPointMultiply`, `cpaCyEcdsaSignRS`,
  `cpaCyEcdsaVerify`), `get_next_inst` and the async-job API: they are
  scripted rounds and polls.
- Real sleeping, `pthread_yield` and cross-thread completion: the model
  records sleep lengths and yields but has no time and no concurrency. The
  scripts must end with a pass that leaves each loop (`Settles`,
  `Completes`), and the draws must end with a non-zero or failed draw
  (`DrawsEnd`). A request that never completes, and a sampling loop that
  never ends, are not modelled.
- BN and EC arithmetic: curve parameters, affine coordinates, point
  validity and `BN_rand_range` are inputs. `qat_BN_to_FB` is not part of
  this model; it is taken to write minimal big-endian bytes and to give the
  empty buffer for zero.
- `d2i_ECDSA_SIG`/`i2d_ECDSA_SIG` are OpenSSL's. The model has its own DER
  encoder and a decoder that is lenient as d2i is: it accepts over-long
  lengths, non-minimal INTEGERs (empty contents read as zero) and trailing
  bytes. Both treat INTEGER contents as OpenSSL's BIGNUM type does, as an
  unsigned magnitude. The gate's property does not depend on the leniency
  (`Der.GateIndependentOfDecoder`). Failures inside d2i and i2d other than
  malformed input are two allocation sites.
- X25519 delegation to the software implementation: its result is a
  parameter (`software`). `RAND_seed` is not modelled.
- Integer widths: `int dgst_len`, `size_t` lengths and `Cpa32U` buffer
  lengths are unbounded naturals. The one width the model writes out is
  i2d's -1 stored into the unsigned `*siglen` (`UintMax`).
- Ecdh.GenerateKey: requires a group with a generator when it offloads. The
  source passes a NULL generator on to compute-key.
- Ecdh.GenerateKey: a failed `BN_rand_range` is modelled as writing
  nothing, so the key keeps what the previous draw left in its private key
  (`Ecdh.AfterFailedDraw`: its old value when the first draw fails, 0 after
  a zero draw). Whatever intermediate value OpenSSL's own retries inside
  the failing call may leave in the number is not modelled.
- The separate `BN_CTX_get` calls of each builder are one failure site
  (`CtxGet`), since they all exit the same way.
- The verify front end's own allocations (the DER re-encoding and the
  signature object) are not in the books; their failures are modelled. It
  frees them on every path.
- Ecdsa.DoSign: takes an `EcKey` rather than a possibly NULL pointer. A NULL
  key is not modelled.
- Ecdsa.DoVerify: the 0 that the comment at qat_ec.c:1138-1143 promises
  for an incorrect signature is not modelled. The code returns -1 when the
  accelerator reports the signature invalid (qat_ec.c:1444-1445), and 0
  only from the range pre-check; the model follows the code.
- Ecdsa.DoSign: r and s are attached with the corrected
  `Ecdsa.AttachComponents`, so its `parts` log always balances. The source
  leaks the one that exists when only one `BN_new` fails
  (`Ecdsa.AttachAsWritten`, first row of Findings).
- Ecdh.GenerateKey: the coordinate loads are the corrected ones of
  `Ecdh.CoordinateCheck`, so its log always balances. As written, a failed
  `BN_bin2bn` leaks a coordinate number
  (`Ecdh.LoadThenCleanupAsWritten`, second row of Findings).
- Sign sizes its result buffers in bits, not bytes (qat_ec.c:994). This is
  kept as written (`Params.SignBuflen`), and r and s are read from buffers of
  that length.

## Findings

| source | as written | input that shows it | evidently intended | confidence | as-written member | corrected member |
|---|---|---|---|---|---|---|
| qat_ec.c:833-839 | r and s come from two unchecked `BN_new` calls. `ECDSA_SIG_set0` refuses a NULL and takes neither, and the error path frees only the signature object | `BN_new` for s fails while r succeeds: r is never freed | free r and s when `ECDSA_SIG_set0` refuses them | not executed | Ecdsa.AttachAsWritten (Ecdsa.AttachAsWrittenLeaks) | Ecdsa.AttachComponents (Ecdsa.AttachComponentsCorrects) |
| qat_ec.c:653-654 | `x_bn = BN_bin2bn(temp_xbuf, ..., x_bn)` (and the same for y) stores the unchecked result over the number it loads into. A failing `BN_bin2bn` returns NULL and does not free a number it was given | after the four `BN_new` calls succeed, `BN_bin2bn` for x cannot expand the number: x_bn becomes NULL, setting the coordinates refuses the NULL, and the cleanup's NULL check skips the number from qat_ec.c:647 | check the result and keep the number, so that the cleanup frees it | not executed | Ecdh.LoadThenCleanupAsWritten | Ecdh.CoordinateCheck (Ecdh.GenerateKey) |

=== FILE: books.dfy ===
/**
 * The allocation books of one builder. Each builder allocates its resources
 * in a fixed order, at most once each, and frees what is live in its cleanup
 * block; the books record this as a log of Ledger events. A resource's rank
 * is its place in the builder's allocation order, so "allocated in order"
 * stands in for "never allocated twice".
 */
module Books {
  import opened Common
  import opened Ledger
  import opened EcTypes

  /**
   * The builder the books belong to. The r and s numbers of a new signature
   * have books of their own (Components): they are created together and then
   * either given to the signature object or left with the caller of BN_new.
   */
  datatype Op = Exchange | KeyGen | Signing | Verifying | Components

  /** The place of x in the builder's allocation order, from 1; 0 for what it never allocates. */
  function Rank(op: Op, x: Res): (n: nat)
    ensures n <= 16
  {
    match op
    case Exchange =>
      (match x
       case OpData => 1
       case BnCtx => 2
       case ResultHeader(First) => 3
       case ResultData(First) => 4
       case ResultHeader(Second) => 5
       case ResultData(Second) => 6
       case Field(K) => 7
       case Field(Xg) => 8
       case Field(Yg) => 9
       case Field(A) => 10
       case Field(B) => 11
       case Field(Q) => 12
       case _ => 0)
    case KeyGen =>
      (match x
       case OrderBn => 1
       case BnCtx => 2
       case PrivKeyBn => 3
       case PubKeyPoint => 4
       case CallerBuffer(First) => 5
       case CallerBuffer(Second) => 6
       case CoordBn(X) => 7
       case CoordBn(Y) => 8
       case CoordBn(Tx) => 9
       case CoordBn(Ty) => 10
       case _ => 0)
    case Signing =>
      (match x
       case OpData => 1
       case SigObject => 2
       case BnCtx => 3
       case Field(D) => 4
       case Field(M) => 5
       case Field(Xg) => 6
       case Field(Yg) => 7
       case Field(A) => 8
       case Field(B) => 9
       case Field(Q) => 10
       case Field(K) => 11
       case Field(N) => 12
       case ResultHeader(First) => 13
       case ResultData(First) => 14
       case ResultHeader(Second) => 15
       case ResultData(Second) => 16
       case _ => 0)
    case Components =>
      (match x
       case SigBn(R) => 1
       case SigBn(S) => 2
       case _ => 0)
    case Verifying =>
      (match x
       case OpData => 1
       case BnCtx => 2
       case Field(M) => 3
       case Field(Xg) => 4
       case Field(Yg) => 5
       case Field(A) => 6
       case Field(B) => 7
       case Field(Q) => 8
       case Field(N) => 9
       case Field(R) => 10
       case Field(S) => 11
       case Field(Xp) => 12
       case Field(Yp) => 13
       case _ => 0)
  }

  /** What the builder may allocate. */
  function Owned(op: Op): (s: set<Res>)
    ensures forall y :: y in s ==> Rank(op, y) >= 1
  {
    match op
    case Exchange =>
      {OpData, BnCtx, ResultHeader(First), ResultData(First), ResultHeader(Second),
       ResultData(Second), Field(K), Field(Xg), Field(Yg), Field(A), Field(B), Field(Q)}
    case KeyGen =>
      {OrderBn, BnCtx, PrivKeyBn, PubKeyPoint, CallerBuffer(First), CallerBuffer(Second),
       CoordBn(X), CoordBn(Y), CoordBn(Tx), CoordBn(Ty)}
    case Signing =>
      {OpData, SigObject, BnCtx, Field(D), Field(M), Field(Xg), Field(Yg),
       Field(A), Field(B), Field(Q), Field(K), Field(N), ResultHeader(First), ResultData(First),
       ResultHeader(Second), ResultData(Second)}
    case Verifying =>
      {OpData, BnCtx, Field(M), Field(Xg), Field(Yg), Field(A), Field(B), Field(Q), Field(N),
       Field(R), Field(S), Field(Xp), Field(Yp)}
    case Components => {SigBn(R), SigBn(S)}
  }

  /** Everything with a rank is owned. */
  lemma RankedOwned(op: Op, y: Res)
    requires Rank(op, y) >= 1
    ensures y in Owned(op)
  {
    match op
    case Exchange =>
    case KeyGen =>
    case Signing =>
    case Verifying =>
    case Components =>
  }

  /**
   * What the builder must only ever release by cleansing: the scalars k and
   * d, the new private key, and the shared secret in compute-key's result
   * buffers.
   */
  predicate Secret(op: Op, x: Res)
  {
    match op
    case Exchange => x == Field(K) || x == ResultData(First) || x == ResultData(Second)
    case KeyGen => x == PrivKeyBn
    case Signing => x == Field(K) || x == Field(D)
    case Verifying => false
    case Components => false
  }

  /** No secret in the log is released other than by cleansing. */
  predicate SecretsCleansed(op: Op, log: seq<Ev<Res>>)
  {
    forall i :: 0 <= i < |log| && log[i].Release? && Secret(op, log[i].res) ==> log[i].how == Cleanse
  }

  /**
   * A builder's books: its log, what the log's replay says was ever
   * allocated and is still live, and the rank of the last allocation.
   */
  datatype Arena = Arena(op: Op, log: seq<Ev<Res>>, seen: set<Res>, live: set<Res>, top: nat)
  {
    predicate Valid()
    {
      Run(log) == Some(Replay(seen, live)) &&
      (forall y :: y in seen ==> 1 <= Rank(op, y) <= top) &&
      SecretsCleansed(op, log)
    }
  }

  /** Books with nothing in them. */
  function Open(op: Op): (a: Arena)
    ensures a.Valid() && a.op == op && a.log == [] && a.live == {} && a.top == 0
  {
    Arena(op, [], {}, {}, 0)
  }

  /** The live allocations are among the builder's own. */
  lemma LiveOwned(a: Arena)
    requires a.Valid()
    ensures a.live <= Owned(a.op)
  {
    forall y | y in a.live
      ensures y in Owned(a.op)
    {
      RankedOwned(a.op, y);
    }
  }

  /** Releases x if it is live (the NULL-checked free of a cleanup block). */
  function Give(a: Arena, x: Res, how: How): (b: Arena)
    requires a.Valid()
    requires Secret(a.op, x) ==> how == Cleanse
    ensures b.Valid() && b.op == a.op && b.top == a.top
    ensures b.live == a.live - {x} && b.seen == a.seen
    ensures x in a.live ==> b.log == a.log + [Release(x, how)]
    ensures x !in a.live ==> b.log == a.log
  {
    if x in a.live then
      var log := a.log + [Release(x, how)];
      assert log[..|log| - 1] == a.log;
      Arena(a.op, log, a.seen, a.live - {x}, a.top)
    else a
  }

  /** An allocation that succeeded: x comes after everything allocated so far. */
  method Take(a: Arena, x: Res) returns (b: Arena)
    requires a.Valid() && a.top < Rank(a.op, x)
    ensures b.Valid() && b.op == a.op && b.top == Rank(a.op, x)
    ensures b.live == a.live + {x}
  {
    b := Acquired(a, x);
  }

  /**
   * An allocation as a value, for the steps the model states as functions:
   * the log gains the acquisition and nothing else changes.
   */
  function Acquired(a: Arena, x: Res): (b: Arena)
    requires a.Valid() && a.top < Rank(a.op, x)
    ensures b.Valid() && b.op == a.op && b.top == Rank(a.op, x)
    ensures b.log == a.log + [Acquire(x)]
    ensures b.live == a.live + {x} && b.seen == a.seen + {x}
  {
    var log := a.log + [Acquire(x)];
    assert log[..|log| - 1] == a.log;
    Arena(a.op, log, a.seen + {x}, a.live + {x}, Rank(a.op, x))
  }

  /**
   * A cleanup block: each resource of order in turn, released when it is
   * live (the NULL-checked frees), by cleansing when it is in cleansed and
   * by a plain free otherwise. Nothing outside order is touched.
   */
  method Cleanup(a: Arena, order: seq<Res>, cleansed: set<Res>) returns (b: Arena)
    requires a.Valid()
    requires forall i :: 0 <= i < |order| && Secret(a.op, order[i]) ==> order[i] in cleansed
    ensures b.Valid() && b.op == a.op
    ensures forall y :: y in b.live <==> y in a.live && y !in order
  {
    b := a;
    var i := 0;
    while i < |order|
      invariant 0 <= i <= |order|
      invariant b.Valid() && b.op == a.op
      invariant forall y :: y in b.live <==> y in a.live && y !in order[..i]
    {
      b := Give(b, order[i], if order[i] in cleansed then Cleanse else Free);
      assert order[..i + 1] == order[..i] + [order[i]];
      i := i + 1;
    }
    assert order[..i] == order;
  }

  /** Closed books: nothing live, so the log is balanced. */
  lemma ClosedBalanced(a: Arena)
    requires a.Valid() && a.live == {}
    ensures Balanced(a.log) && SecretsCleansed(a.op, a.log)
  {
  }
}

=== FILE: bytes.dfy ===
/**
 * Big-endian byte strings and the big-number facts the offload glue relies on:
 * BN_bin2bn (BEValue), the minimal big-endian form written by BN_bn2bin
 * (MinimalBE) and BN_num_bits (NumBits).
 */
module Bytes {

  newtype byte = x: int | 0 <= x < 256

  function Pow2(n: nat): (r: nat)
    ensures r >= 1
  {
    if n == 0 then 1 else 2 * Pow2(n - 1)
  }

  lemma {:induction false} Pow2Add(a: nat, b: nat)
    ensures Pow2(a + b) == Pow2(a) * Pow2(b)
  {
    if a != 0 {
      Pow2Add(a - 1, b);
      assert Pow2(a + b) == 2 * Pow2(a - 1 + b);
    }
  }

  lemma {:induction false} Pow2Monotone(a: nat, b: nat)
    requires a <= b
    ensures Pow2(a) <= Pow2(b)
  {
    if a < b {
      Pow2Monotone(a, b - 1);
    }
  }

  lemma Pow2Byte(n: nat)
    ensures Pow2(8 * n + 8) == Pow2(8 * n) * 256
  {
    Pow2Add(8 * n, 8);
  }

  lemma MulMono(a: int, b: int, c: nat)
    requires a <= b
    ensures a * c <= b * c
  {
    assert b * c - a * c == (b - a) * c;
  }

  /** Euclidean division is unique: x == q * d + r with 0 <= r < d fixes q and r. */
  lemma DivUnique(x: int, d: int, q: int, r: int)
    requires 0 <= r < d && x == q * d + r
    ensures x / d == q && x % d == r
  {
    var q' := x / d;
    var r' := x % d;
    assert x == q' * d + r';
    if q' > q {
      assert (q + 1) * d == q * d + d;
      MulMono(q + 1, q', d);
      assert false;
    } else if q' < q {
      assert (q' + 1) * d == q' * d + d;
      MulMono(q' + 1, q, d);
      assert false;
    }
  }

  lemma NestedRemainder(x: int, y: int, q: int, r1: int, r2: int, a: int, b: int)
    requires x == y * a + r1 && y == q * b + r2
    requires 0 <= r1 < a && 0 <= r2 < b
    ensures x == q * (a * b) + (r2 * a + r1)
    ensures r2 * a + r1 < a * b
  {
    assert y * a == q * (a * b) + r2 * a;
    MulMono(r2, b - 1, a);
    assert (b - 1) * a == a * b - a;
  }

  /** The arithmetic step of BEValueAppend, over plain integers. */
  lemma AppendStep(whole: int, front: int, hi: int, p: int, lo: int, c: int, low: int, shift: int)
    requires whole == front * 256 + c && front == hi * p + lo
    requires low == lo * 256 + c && shift == p * 256
    ensures whole == hi * shift + low
  {
  }

  /** Dividing twice is dividing by the product. */
  lemma DivDiv(x: nat, a: nat, b: nat)
    requires a > 0 && b > 0
    ensures x / a / b == x / (a * b)
  {
    var y := x / a;
    var q := y / b;
    var m := a * b;
    var r := (y % b) * a + x % a;
    NestedRemainder(x, y, q, x % a, y % b, a, b);
    DivUnique(x, m, q, r);
  }

  /** x < 2^(a+b) gives x / 2^b < 2^a. */
  lemma DivPow2Bound(x: nat, a: nat, b: nat)
    ensures x < Pow2(a + b) ==> x / Pow2(b) < Pow2(a)
  {
    Pow2Add(a, b);
    var p := Pow2(b);
    if x < Pow2(a + b) && x / p >= Pow2(a) {
      assert x == (x / p) * p + x % p;
      MulMono(Pow2(a), x / p, p);
      assert false;
    }
  }

  /** Unsigned value of a big-endian byte string (BN_bin2bn). */
  function BEValue(s: seq<byte>): (v: nat)
    ensures v < Pow2(8 * |s|)
  {
    if |s| == 0 then 0
    else
      var n := |s| - 1;
      Pow2Byte(n);
      BEValue(s[..n]) * 256 + s[n] as nat
  }

  lemma BEValueSnoc(s: seq<byte>, b: byte)
    ensures BEValue(s + [b]) == BEValue(s) * 256 + b as nat
  {
    assert (s + [b])[..|s|] == s;
  }

  /** Concatenation: the high part is shifted left by the width of the low part. */
  lemma {:induction false} BEValueAppend(a: seq<byte>, b: seq<byte>)
    ensures BEValue(a + b) == BEValue(a) * Pow2(8 * |b|) + BEValue(b)
    decreases |b|
  {
    if |b| == 0 {
      assert a + b == a;
    } else {
      var n := |b| - 1;
      var b' := b[..n];
      assert b == b' + [b[n]];
      assert a + b == (a + b') + [b[n]];
      BEValueSnoc(a + b', b[n]);
      BEValueSnoc(b', b[n]);
      BEValueAppend(a, b');
      Pow2Byte(n);
      AppendStep(BEValue(a + b), BEValue(a + b'), BEValue(a), Pow2(8 * n), BEValue(b'),
                 b[n] as nat, BEValue(b), Pow2(8 * |b|));
    }
  }

  lemma BEValueSplit(s: seq<byte>, k: nat)
    requires k <= |s|
    ensures BEValue(s) == BEValue(s[..k]) * Pow2(8 * (|s| - k)) + BEValue(s[k..])
  {
    assert s == s[..k] + s[k..];
    BEValueAppend(s[..k], s[k..]);
    assert |s[k..]| == |s| - k;
  }

  /** Keeping the first k bytes divides the value by 2^(8 * (|s| - k)). */
  lemma BEValuePrefix(s: seq<byte>, k: nat)
    requires k <= |s|
    ensures BEValue(s[..k]) == BEValue(s) / Pow2(8 * (|s| - k))
  {
    BEValueSplit(s, k);
    DivUnique(BEValue(s), Pow2(8 * (|s| - k)), BEValue(s[..k]), BEValue(s[k..]));
  }

  /** A leading zero byte does not change the value. */
  lemma BEValueLeadingZero(s: seq<byte>)
    ensures BEValue([0 as byte] + s) == BEValue(s)
  {
    var z := [0 as byte];
    assert BEValue(z) == 0 by {
      assert z[..0] == [];
    }
    BEValueAppend(z, s);
    assert 0 * Pow2(8 * |s|) == 0;
  }

  /**
   * The shortest big-endian encoding of n: no leading zero byte, and the
   * empty string for zero (what BN_bn2bin writes into BN_num_bytes bytes).
   */
  function MinimalBE(n: nat): (s: seq<byte>)
    ensures BEValue(s) == n
    ensures |s| == 0 <==> n == 0
    ensures |s| > 0 ==> s[0] != 0
    decreases n
  {
    if n == 0 then []
    else
      var hi := MinimalBE(n / 256);
      BEValueSnoc(hi, (n % 256) as byte);
      hi + [(n % 256) as byte]
  }

  /** Number of significant bits (BN_num_bits): 0 for zero. */
  function NumBits(n: nat): (bits: nat)
    ensures n < Pow2(bits)
    ensures n > 0 ==> bits >= 1 && Pow2(bits - 1) <= n
    ensures n == 0 ==> bits == 0
  {
    if n == 0 then 0 else NumBits(n / 2) + 1
  }
}

=== FILE: common.dfy ===
/** Small shared vocabulary: optional values and integer helpers. */
module Common {

  /** A value that may be absent; stands for a C pointer that may be NULL. */
  datatype Option<+T> = None | Some(value: T)

  function Max(a: int, b: int): int {
    if a >= b then a else b
  }

  function Min(a: int, b: int): int {
    if a <= b then a else b
  }
}

=== FILE: der.dfy ===
/**
 * The DER form of an ECDSA signature, the SEQUENCE of two INTEGERs r and s
 * (ECDSA-Sig-Value, section 2.2.3 of RFC 3279), under the distinguished
 * encoding rules of ITU-T X.690: definite lengths in the shortest form and
 * integers in the shortest form.
 *
 * The INTEGER contents are read and written the way OpenSSL's BIGNUM
 * INTEGER type does it: as an unsigned big-endian magnitude, with one 0x00 in
 * front when the top bit of the magnitude is set (or the value is zero). A
 * sign is never read, and the sign of a negative BIGNUM is dropped on
 * writing.
 *
 * The encoder plays the part of i2d_ECDSA_SIG. The decoder plays the part of
 * d2i_ECDSA_SIG and is deliberately lenient the way a BER reader is: it
 * accepts over-long lengths and padded integers and it ignores bytes after the
 * SEQUENCE. The verify front end closes that gap by re-encoding the decoded
 * value and demanding the very same bytes (CanonicalDecode).
 */
module Der {
  import opened Common
  import opened Bytes

  const SequenceTag: byte := 0x30
  const IntegerTag: byte := 0x02

  /** An ECDSA signature value; components are BIGNUMs, which carry a sign. */
  datatype Signature = Signature(r: int, s: int)

  /** Both components are at least zero: the only signatures the decoder produces. */
  predicate NonNegative(sig: Signature)
  {
    sig.r >= 0 && sig.s >= 0
  }

  /** |x|, what BN_bn2bin writes for a BIGNUM of value x. */
  function Magnitude(x: int): (m: nat)
    ensures m == x || m == -x
  {
    if x < 0 then -x else x
  }

  /* ---------------------------------------------------------------------- */
  /* INTEGER contents: an unsigned magnitude, big-endian                    */
  /* ---------------------------------------------------------------------- */

  /** The value of the contents octets of an INTEGER, read as BN_bin2bn reads them. */
  function DecodeInteger(c: seq<byte>): (x: nat)
    ensures x < Pow2(8 * |c|)
  {
    BEValue(c)
  }

  /**
   * The contents octets for x: the minimal magnitude bytes of |x|, with one
   * 0x00 in front when they are empty or their top bit is set, so that the
   * first octet never has its top bit set and never is a redundant zero.
   */
  function EncodeInteger(x: int): (c: seq<byte>)
    ensures |c| > 0 && c[0] < 128
    ensures |c| > 1 ==> c[0] != 0 || c[1] >= 128
  {
    var m := MinimalBE(Magnitude(x));
    if |m| == 0 || m[0] >= 128 then [0 as byte] + m else m
  }

  /** Round trip for integers: decoding the encoding gives the magnitude back. */
  lemma DecodeEncodeInteger(x: int)
    ensures DecodeInteger(EncodeInteger(x)) == Magnitude(x)
    ensures x >= 0 ==> DecodeInteger(EncodeInteger(x)) == x
  {
    var m := MinimalBE(Magnitude(x));
    if |m| == 0 || m[0] >= 128 {
      BEValueLeadingZero(m);
    }
  }

  /** The two integers that encode alike are those of equal magnitude. */
  lemma EncodeIntegerDropsSign(x: int, y: int)
    ensures EncodeInteger(x) == EncodeInteger(y) <==> Magnitude(x) == Magnitude(y)
  {
    if EncodeInteger(x) == EncodeInteger(y) {
      DecodeEncodeInteger(x);
      DecodeEncodeInteger(y);
    }
  }

  /* ---------------------------------------------------------------------- */
  /* Lengths (X.690 section 8.1.3) and tag-length-value elements            */
  /* ---------------------------------------------------------------------- */

  /**
   * The definite length octets for n: one byte below 128, otherwise 0x80 + k
   * followed by the k bytes of n. k = 127 is reserved, so longer lengths
   * cannot be encoded.
   */
  function EncodeLength(n: nat): (l: Option<seq<byte>>)
    ensures l.Some? ==> |l.value| >= 1
    ensures n < 128 ==> l == Some([n as byte])
  {
    if n < 128 then Some([n as byte])
    else
      var m := MinimalBE(n);
      if |m| <= 126 then Some([(128 + |m|) as byte] + m) else None
  }

  /**
   * Reads the length octets at the front of b: the length and the number of
   * bytes they take. Over-long long forms are accepted; the indefinite form
   * (0x80) and the reserved 0xFF are not.
   */
  function ParseLength(b: seq<byte>): (r: Option<(nat, nat)>)
    ensures r.Some? ==> 1 <= r.value.1 <= |b|
  {
    if |b| == 0 then None
    else if b[0] < 128 then Some((b[0] as nat, 1))
    else if b[0] == 128 || b[0] == 255 then None
    else
      var k := b[0] as int - 128;
      if |b| < 1 + k then None else Some((BEValue(b[1..1 + k]), 1 + k))
  }

  lemma ParseEncodeLength(n: nat, rest: seq<byte>)
    requires EncodeLength(n).Some?
    ensures ParseLength(EncodeLength(n).value + rest) == Some((n, |EncodeLength(n).value|))
  {
    var l := EncodeLength(n).value;
    var b := l + rest;
    if n >= 128 {
      var m := MinimalBE(n);
      assert b[1..1 + |m|] == m;
    }
  }

  /** tag, length octets, contents. */
  function EncodeTlv(tag: byte, content: seq<byte>): (t: Option<seq<byte>>)
    ensures t.Some? ==> |t.value| > |content| && t.value[0] == tag
    ensures t.Some? ==> t.value[|t.value| - |content|..] == content
  {
    match EncodeLength(|content|)
    case None => None
    case Some(l) => Some([tag] + l + content)
  }

  /** Splits one element with the given tag off the front of b: its contents and what follows it. */
  function ParseTlv(tag: byte, b: seq<byte>): (r: Option<(seq<byte>, seq<byte>)>)
    ensures r.Some? ==> |r.value.0| + |r.value.1| < |b|
  {
    if |b| == 0 || b[0] != tag then None
    else
      match ParseLength(b[1..])
      case None => None
      case Some((len, used)) =>
        if |b| < 1 + used + len then None
        else Some((b[1 + used..1 + used + len], b[1 + used + len..]))
  }

  lemma ParseEncodeTlv(tag: byte, content: seq<byte>, rest: seq<byte>)
    requires EncodeTlv(tag, content).Some?
    ensures ParseTlv(tag, EncodeTlv(tag, content).value + rest) == Some((content, rest))
  {
    var l := EncodeLength(|content|).value;
    var b := EncodeTlv(tag, content).value + rest;
    assert b[1..] == l + (content + rest);
    ParseEncodeLength(|content|, content + rest);
    var used := |l|;
    assert b[1 + used..1 + used + |content|] == content;
    assert b[1 + used + |content|..] == rest;
  }

  /* ---------------------------------------------------------------------- */
  /* The signature SEQUENCE                                                 */
  /* ---------------------------------------------------------------------- */

  /** The two INTEGER elements that form the SEQUENCE's contents. */
  function EncodeComponents(sig: Signature): (body: Option<seq<byte>>)
    ensures body.Some? ==> |body.value| >= 6
  {
    match (EncodeTlv(IntegerTag, EncodeInteger(sig.r)), EncodeTlv(IntegerTag, EncodeInteger(sig.s)))
    case (Some(rt), Some(st)) => Some(rt + st)
    case _ => None
  }

  /** i2d_ECDSA_SIG: None stands for its failure (-1). */
  function EncodeSignature(sig: Signature): (b: Option<seq<byte>>)
    ensures b.Some? ==> |b.value| >= 8 && b.value[0] == SequenceTag
  {
    match EncodeComponents(sig)
    case None => None
    case Some(body) => EncodeTlv(SequenceTag, body)
  }

  /**
   * d2i_ECDSA_SIG: one SEQUENCE holding exactly two INTEGERs, each read as a
   * magnitude (empty contents read as zero, as BN_bin2bn reads them);
   * whatever follows the SEQUENCE is ignored.
   */
  function DecodeSignature(b: seq<byte>): (sig: Option<Signature>)
    ensures sig.Some? ==> |b| >= 6 && b[0] == SequenceTag && NonNegative(sig.value)
  {
    match ParseTlv(SequenceTag, b)
    case None => None
    case Some((body, _)) =>
      match ParseTlv(IntegerTag, body)
      case None => None
      case Some((rc, afterR)) =>
        match ParseTlv(IntegerTag, afterR)
        case None => None
        case Some((sc, afterS)) =>
          if |afterS| != 0 then None
          else Some(Signature(DecodeInteger(rc), DecodeInteger(sc)))
  }

  /**
   * Decoding an encoding, with anything appended to it, gives the signature
   * back, with the sign of each component dropped.
   */
  lemma DecodeEncodeSignature(sig: Signature, trailing: seq<byte>)
    ensures EncodeSignature(sig).Some? ==>
              DecodeSignature(EncodeSignature(sig).value + trailing) ==
              Some(Signature(Magnitude(sig.r), Magnitude(sig.s)))
    ensures EncodeSignature(sig).Some? && NonNegative(sig) ==>
              DecodeSignature(EncodeSignature(sig).value + trailing) == Some(sig)
  {
    if EncodeSignature(sig).None? {
      return;
    }
    var b := EncodeSignature(sig).value + trailing;
    var rc, sc := EncodeInteger(sig.r), EncodeInteger(sig.s);
    var rt := EncodeTlv(IntegerTag, rc).value;
    var st := EncodeTlv(IntegerTag, sc).value;
    var body := rt + st;
    assert EncodeSignature(sig) == EncodeTlv(SequenceTag, body);
    ParseEncodeTlv(SequenceTag, body, trailing);
    ParseEncodeTlv(IntegerTag, rc, st);
    ParseEncodeTlv(IntegerTag, sc, []);
    assert st + [] == st;
    assert ParseTlv(SequenceTag, b) == Some((body, trailing));
    assert ParseTlv(IntegerTag, body) == Some((rc, st));
    assert ParseTlv(IntegerTag, st) == Some((sc, []));
    DecodeEncodeInteger(sig.r);
    DecodeEncodeInteger(sig.s);
    assert DecodeSignature(b) == Some(Signature(DecodeInteger(rc), DecodeInteger(sc)));
  }


  /* ---------------------------------------------------------------------- */
  /* The re-encoding gate of the verify front end                           */
  /* ---------------------------------------------------------------------- */

  /**
   * Decode with the given decoder, re-encode, and accept only if the
   * re-encoding has the input's length and bytes.
   */
  function Gate(decode: seq<byte> -> Option<Signature>, b: seq<byte>): (sig: Option<Signature>)
    ensures sig.Some? ==> decode(b) == sig && EncodeSignature(sig.value) == Some(b)
  {
    match decode(b)
    case None => None
    case Some(sig) => if EncodeSignature(sig) == Some(b) then Some(sig) else None
  }

  /** The gate as the verify front end applies it, with the lenient decoder. */
  function CanonicalDecode(b: seq<byte>): (sig: Option<Signature>)
    ensures sig.Some? ==> EncodeSignature(sig.value) == Some(b)
  {
    Gate(DecodeSignature, b)
  }

  /**
   * The gate accepts exactly the DER encodings, and returns what was encoded;
   * the signatures it returns are the non-negative ones.
   */
  lemma CanonicalDecodeAcceptsExactlyEncodings(b: seq<byte>, sig: Signature)
    ensures CanonicalDecode(b) == Some(sig) <==> NonNegative(sig) && EncodeSignature(sig) == Some(b)
  {
    if NonNegative(sig) && EncodeSignature(sig) == Some(b) {
      DecodeEncodeSignature(sig, []);
      assert b + [] == b;
    }
  }

  /**
   * A decoder that gets back every non-negative signature from its encoding
   * and, like every BIGNUM reader, produces no negative component.
   */
  ghost predicate InvertsEncoder(decode: seq<byte> -> Option<Signature>)
  {
    && (forall sig :: NonNegative(sig) && EncodeSignature(sig).Some? ==>
          decode(EncodeSignature(sig).value) == Some(sig))
    && (forall b :: decode(b).Some? ==> NonNegative(decode(b).value))
  }

  /**
   * What the gate accepts does not depend on how lenient the decoder is: any
   * two decoders that invert the encoder give the same gate.
   */
  lemma GateIndependentOfDecoder(d1: seq<byte> -> Option<Signature>,
                                 d2: seq<byte> -> Option<Signature>, b: seq<byte>)
    requires InvertsEncoder(d1) && InvertsEncoder(d2)
    ensures Gate(d1, b) == Gate(d2, b)
  {
    if Gate(d1, b).Some? {
      assert EncodeSignature(Gate(d1, b).value) == Some(b);
    } else if Gate(d2, b).Some? {
      assert EncodeSignature(Gate(d2, b).value) == Some(b);
    }
  }

  /** The lenient decoder is one of those decoders. */
  lemma DecodeSignatureInvertsEncoder()
    ensures InvertsEncoder(DecodeSignature)
  {
    forall sig | NonNegative(sig) && EncodeSignature(sig).Some?
      ensures DecodeSignature(EncodeSignature(sig).value) == Some(sig)
    {
      DecodeEncodeSignature(sig, []);
      assert EncodeSignature(sig).value + [] == EncodeSignature(sig).value;
    }
  }

  /**
   * Bytes after the SEQUENCE are ignored by the decoder but refused by the
   * gate.
   */
  lemma TrailingBytesRejected(sig: Signature, trailing: seq<byte>)
    requires NonNegative(sig) && EncodeSignature(sig).Some? && |trailing| > 0
    ensures DecodeSignature(EncodeSignature(sig).value + trailing) == Some(sig)
    ensures CanonicalDecode(EncodeSignature(sig).value + trailing) == None
  {
    DecodeEncodeSignature(sig, trailing);
  }

  /** The signature (1, 1) with r written as the zero-padded INTEGER 00 01. */
  const PaddedOneOne: seq<byte> := [0x30, 0x07, 0x02, 0x02, 0x00, 0x01, 0x02, 0x01, 0x01]

  /** The lenient decoder reads the padded r as 1. */
  lemma PaddedIntegerDecoded()
    ensures DecodeSignature(PaddedOneOne) == Some(Signature(1, 1))
  {
    var b := PaddedOneOne;
    var body := b[2..];
    assert ParseLength(b[1..]) == Some((7, 1));
    assert b[2..9] == body;
    assert ParseTlv(SequenceTag, b) == Some((body, b[9..]));
    assert ParseLength(body[1..]) == Some((2, 1));
    assert ParseTlv(IntegerTag, body) == Some((body[2..4], body[4..]));
    var afterR := body[4..];
    assert ParseLength(afterR[1..]) == Some((1, 1));
    assert ParseTlv(IntegerTag, afterR) == Some((afterR[2..3], afterR[3..]));
    assert |afterR[3..]| == 0;
    assert BEValue(body[2..4]) == 1 by {
      assert body[2..4][..1] == [0 as byte];
      assert [0 as byte][..0] == [];
    }
    assert BEValue(afterR[2..3]) == 1 by {
      assert afterR[2..3][..0] == [];
    }
  }

  /** The DER form of (1, 1): eight bytes, each INTEGER a single 01. */
  lemma EncodeOneOne()
    ensures EncodeSignature(Signature(1, 1)) == Some([0x30, 0x06, 0x02, 0x01, 0x01, 0x02, 0x01, 0x01])
  {
    var one: seq<byte> := [1];
    assert MinimalBE(1) == one by {
      assert MinimalBE(0) == [];
    }
    assert EncodeInteger(1) == one;
    assert EncodeLength(1) == Some(one);
    var element: seq<byte> := [0x02, 0x01, 0x01];
    assert [IntegerTag] + one + one == element;
    assert EncodeComponents(Signature(1, 1)) == Some(element + element);
    assert EncodeLength(6) == Some([6 as byte]);
    assert [SequenceTag] + [6 as byte] + (element + element) ==
           [0x30, 0x06, 0x02, 0x01, 0x01, 0x02, 0x01, 0x01];
  }

  /**
   * A zero-padded INTEGER is decoded, but the gate refuses it because the
   * DER form of 1 is the single byte 01.
   */
  lemma PaddedIntegerRejected()
    ensures DecodeSignature(PaddedOneOne) == Some(Signature(1, 1))
    ensures CanonicalDecode(PaddedOneOne) == None
  {
    PaddedIntegerDecoded();
    EncodeOneOne();
  }

  /** The signature (255, 1) with r written without its pad, as the single byte FF. */
  const UnpaddedHighBit: seq<byte> := [0x30, 0x06, 0x02, 0x01, 0xFF, 0x02, 0x01, 0x01]

  /**
   * An INTEGER whose top bit is set is read as a positive magnitude, not as a
   * negative number, and the gate refuses it because the DER form of 255
   * needs the 0x00 pad.
   */
  lemma HighBitNeedsPad()
    ensures DecodeSignature(UnpaddedHighBit) == Some(Signature(255, 1))
    ensures CanonicalDecode(UnpaddedHighBit) == None
  {
    var b := UnpaddedHighBit;
    var body := b[2..];
    assert ParseLength(b[1..]) == Some((6, 1));
    assert b[2..8] == body;
    assert ParseTlv(SequenceTag, b) == Some((body, b[8..]));
    assert ParseLength(body[1..]) == Some((1, 1));
    assert ParseTlv(IntegerTag, body) == Some((body[2..3], body[3..]));
    var afterR := body[3..];
    assert ParseLength(afterR[1..]) == Some((1, 1));
    assert ParseTlv(IntegerTag, afterR) == Some((afterR[2..3], afterR[3..]));
    assert |afterR[3..]| == 0;
    assert BEValue(body[2..3]) == 255 by {
      assert body[2..3][..0] == [];
    }
    assert BEValue(afterR[2..3]) == 1 by {
      assert afterR[2..3][..0] == [];
    }
    assert MinimalBE(255) == [255 as byte] by {
      assert MinimalBE(0) == [];
    }
    assert |EncodeInteger(255)| == 2;
    assert |EncodeInteger(1)| == 1 by {
      assert MinimalBE(0) == [];
    }
  }
}

=== FILE: digest.dfy ===
/**
 * Converting a message digest into the integer m handed to the accelerator,
 * as done identically by ECDSA sign and verify: keep the leftmost bits of the
 * digest, as many as the group order has (section 4.1.3 step 5 of SEC 1 v2,
 * section 6.4 of FIPS 186-4).
 */
module Digest {
  import opened Common
  import opened Bytes

  /**
   * The leftmost n bits of a byte string read as a big-endian number: the
   * reference definition of what truncation should produce.
   */
  function LeftmostBits(s: seq<byte>, n: nat): (v: nat)
    requires n <= 8 * |s|
    ensures v < Pow2(n)
  {
    DivPow2Bound(BEValue(s), n, 8 * |s| - n);
    BEValue(s) / Pow2(8 * |s| - n)
  }

  /**
   * First step: when the digest has more bits than the order, keep only
   * ceil(orderBits / 8) bytes; otherwise keep all of them.
   */
  function KeptLength(digestLen: nat, orderBits: nat): (len: nat)
    ensures len <= digestLen
    ensures 8 * digestLen <= orderBits ==> len == digestLen
    ensures 8 * digestLen > orderBits ==> orderBits <= 8 * len < orderBits + 8
  {
    if 8 * digestLen > orderBits then (orderBits + 7) / 8 else digestLen
  }

  /**
   * The digest as an integer of at most orderBits bits: whole bytes are cut
   * first, then the bits still in excess are shifted out to the right.
   */
  function TruncateDigest(digest: seq<byte>, orderBits: nat): (m: nat)
    ensures m == LeftmostBits(digest, Min(8 * |digest|, orderBits))
    ensures m < Pow2(orderBits)
  {
    var len := KeptLength(|digest|, orderBits);
    var whole := BEValue(digest[..len]);
    var n := Min(8 * |digest|, orderBits);
    Pow2Monotone(n, orderBits);
    if 8 * len > orderBits then
      KeptBytesThenShift(digest, orderBits, len);
      whole / Pow2(8 - orderBits % 8)
    else
      KeptBytesOnly(digest, orderBits, len);
      whole
  }

  /** The case with a residual shift: the two cuts compose to one cut. */
  lemma KeptBytesThenShift(digest: seq<byte>, orderBits: nat, len: nat)
    requires len == KeptLength(|digest|, orderBits) && 8 * len > orderBits
    ensures 8 * len - orderBits == 8 - orderBits % 8
    ensures BEValue(digest[..len]) / Pow2(8 - orderBits % 8)
         == LeftmostBits(digest, orderBits)
  {
    var shift := 8 - orderBits % 8;
    var tail := 8 * (|digest| - len);
    assert 8 * len - orderBits == shift;
    BEValuePrefix(digest, len);
    DivDiv(BEValue(digest), Pow2(tail), Pow2(shift));
    Pow2Add(tail, shift);
    assert tail + shift == 8 * |digest| - orderBits;
  }

  /** The case without a shift: the kept bytes are exactly the wanted bits. */
  lemma KeptBytesOnly(digest: seq<byte>, orderBits: nat, len: nat)
    requires len == KeptLength(|digest|, orderBits) && 8 * len <= orderBits
    ensures BEValue(digest[..len]) == LeftmostBits(digest, Min(8 * |digest|, orderBits))
  {
    BEValuePrefix(digest, len);
    if 8 * |digest| > orderBits {
      assert 8 * len == orderBits;
    } else {
      assert len == |digest|;
    }
  }

  /** A digest no longer than the order is used whole. */
  lemma ShortDigestUsedWhole(digest: seq<byte>, orderBits: nat)
    requires 8 * |digest| <= orderBits
    ensures TruncateDigest(digest, orderBits) == BEValue(digest)
  {
    assert digest[..|digest|] == digest;
  }
}

=== FILE: ecdh.dfy ===
/**
 * ECDH on the accelerator: compute-key (a point multiplication k * P whose
 * result coordinates are copied out) and key generation (a fresh private
 * key, the public point computed as k * G through compute-key, and a
 * set/get round trip of its coordinates as a consistency check).
 *
 * Every path through a builder, including every early exit to the common
 * cleanup block, leaves the allocation log balanced, and the secret scalar
 * is only ever released by cleansing. For key generation this holds of the
 * coordinate loads as corrected; LoadThenCleanupAsWritten states the leak of
 * the loads as written.
 */
module Ecdh {
  import opened Common
  import opened Bytes
  import opened Ledger
  import opened Offload
  import opened EcTypes
  import opened Books
  import opened Params

  /** What compute-key hands back, and what it did on the way. */
  datatype EcdhResult = EcdhResult(
    ret: int,                        // the return value: -1 on error, the X length on success
    outX: Option<seq<byte>>,         // *outX when the caller asked for it and it was allocated
    outY: Option<seq<byte>>,         // *outY likewise
    fields: Option<PointMultiplyOp>, // the op-data fields, when assembled
    submitted: Option<Submission>,   // the submit loop, when reached
    waited: Option<Waiting>,         // the wait loop, when reached
    log: seq<Ev<Res>>)               // allocations and releases

  /** The key has what compute-key insists on: a private key and a group. */
  predicate Usable(key: Option<EcKey>)
  {
    key.Some? && key.value.priv.Some? && key.value.group.Some?
  }

  /** The request goes to the accelerator (X25519 is delegated to software). */
  predicate Offloaded(key: Option<EcKey>)
  {
    Usable(key) && !key.value.group.value.x25519
  }

  /**
   * The cleanup block of compute-key, in source order: the result buffers
   * (their data cleansed, as it holds the shared secret), k (cleansed), the
   * other fields, the op-data and the context.
   */
  const ExchangeCleanup: seq<Res> :=
    [ResultData(First), ResultHeader(First), ResultData(Second), ResultHeader(Second),
     Field(K), Field(Xg), Field(Yg), Field(A), Field(B), Field(Q), OpData, BnCtx]

  /** Whatever compute-key allocated and still holds is released. */
  method EcdhCleanup(a: Arena) returns (b: Arena)
    requires a.Valid() && a.op == Exchange
    ensures b.Valid() && b.op == Exchange && b.live == {}
  {
    LiveOwned(a);
    b := Cleanup(a, ExchangeCleanup, {ResultData(First), ResultData(Second), Field(K)});
  }

  /**
   * The op-data fields of a point multiplication: the field type (prime or
   * binary), the cofactor h, k, the point (xg, yg), the curve's a, b and q.
   */
  datatype PointMultiplyOp = PointMultiplyOp(prime: bool, h: FlatBuffer, k: FlatBuffer, xg: FlatBuffer,
                                             yg: FlatBuffer, a: FlatBuffer, b: FlatBuffer, q: FlatBuffer)

  /**
   * The op-data of k * (x, y) on the given curve, as compute-key assembles
   * it: any field that is not prime is submitted as binary, and h is left
   * empty so that no cofactor is applied.
   */
  function PointMultiplyOf(k: nat, p: Point, g: Group): (op: PointMultiplyOp)
  {
    PointMultiplyOp(g.field == PrimeField, FlatBuffer(None, 0), FlatOf(k), FlatOf(p.x), FlatOf(p.y),
                    PaddedCoefficient(g.a), FlatOf(g.b), FlatOf(g.p))
  }

  /**
   * Each field of the request stands for its number, h stands for no
   * cofactor at all (the empty buffer), and a is never empty.
   */
  lemma PointMultiplyOfDenotes(k: nat, p: Point, g: Group)
    ensures var op := PointMultiplyOf(k, p, g);
            Denotes(op.k, k) && Denotes(op.xg, p.x) && Denotes(op.yg, p.y) &&
            Denotes(op.a, g.a) && op.a.len >= 1 && Denotes(op.b, g.b) && Denotes(op.q, g.p) &&
            op.h.data.None? && op.h.len == 0
  {
    FlatOfDenotes(k);
    FlatOfDenotes(p.x);
    FlatOfDenotes(p.y);
    PaddedCoefficientDenotes(g.a);
    FlatOfDenotes(g.b);
    FlatOfDenotes(g.p);
  }

  /**
   * Compute-key's context and its two result buffers (header and data for
   * each), in source order.
   */
  method ExchangePrelude(a: Arena, fails: set<Site>) returns (ok: bool, b: Arena)
    requires a.Valid() && a.op == Exchange && a.top == Rank(Exchange, OpData)
    ensures b.Valid() && b.op == Exchange && b.top <= Rank(Exchange, ResultData(Second))
    ensures ok <==> CtxAlloc !in fails && CtxGet !in fails &&
                    HeaderAlloc(First) !in fails && DataAlloc(First) !in fails &&
                    HeaderAlloc(Second) !in fails && DataAlloc(Second) !in fails
  {
    ok, b := false, a;
    if CtxAlloc in fails { return; }
    b := Take(b, BnCtx);
    if CtxGet in fails { return; }
    ok, b := ResultBuffers(b, fails);
  }

  /**
   * The scalar k, then the peer's coordinates once the curve and the point
   * have been read from the library.
   */
  method ScalarAndPeer(a: Arena, fails: set<Site>, k: nat, peer: Point)
    returns (ok: bool, fk: FlatBuffer, fx: FlatBuffer, fy: FlatBuffer, b: Arena)
    requires a.Valid() && a.op == Exchange && a.top <= Rank(Exchange, ResultData(Second))
    ensures b.Valid() && b.op == Exchange && b.top <= Rank(Exchange, Field(Yg))
    ensures ok ==> fk == FlatOf(k) && fx == FlatOf(peer.x) && fy == FlatOf(peer.y)
    ensures fails == {} ==> ok
  {
    fx, fy := FlatBuffer(None, 0), FlatBuffer(None, 0);
    ok, fk, b := ToFlat(a, fails, K, k);
    if !ok { return; }
    if CurveQuery in fails || AffineQuery(Peer) in fails {
      return false, fk, fx, fy, b;
    }
    ok, fx, fy, b := PointFields(b, fails, peer, Xg, Yg);
  }

  /**
   * The op-data fields of compute-key after its result buffers: k and the
   * peer's point, then a (with the zero fix-up, which aborts on failure), b
   * and q.
   */
  method OperandFields(a: Arena, fails: set<Site>, k: nat, peer: Point, g: Group)
    returns (fields: Option<PointMultiplyOp>, b: Arena)
    requires a.Valid() && a.op == Exchange && a.top <= Rank(Exchange, ResultData(Second))
    ensures b.Valid() && b.op == Exchange
    ensures fields.Some? ==> fields.value == PointMultiplyOf(k, peer, g)
    ensures fails == {} ==> fields.Some?
  {
    fields := None;
    var ok, fk, fx, fy, fa, fb, fq;
    ok, fk, fx, fy, b := ScalarAndPeer(a, fails, k, peer);
    if !ok { return; }
    ok, fa, fb, fq, b := CoefficientFields(b, fails, g, true);
    if !ok { return; }
    fields := Some(PointMultiplyOp(g.field == PrimeField, FlatBuffer(None, 0), fk, fx, fy, fa, fb, fq));
  }

  /**
   * Compute-key from the context to the last op-data field, in source
   * order. Any failure stops the assembly; what was allocated is left for
   * the cleanup block.
   */
  method AssemblePointMultiply(a: Arena, fails: set<Site>, k: nat, peer: Point, g: Group)
    returns (fields: Option<PointMultiplyOp>, b: Arena)
    requires a.Valid() && a.op == Exchange && a.top == Rank(Exchange, OpData)
    ensures b.Valid() && b.op == Exchange
    ensures fields.Some? ==> fields.value == PointMultiplyOf(k, peer, g)
    ensures fails == {} ==> fields.Some?
  {
    var ok;
    ok, b := ExchangePrelude(a, fails);
    if !ok {
      return None, b;
    }
    fields, b := OperandFields(b, fails, k, peer, g);
  }

  /**
   * Compute-key from the submission on: submit with retries, wait, check the
   * verify flag, and copy the results out. assembled says whether the
   * op-data is complete (if not, nothing is submitted); n is the result
   * length.
   */
  method CollectPointMultiply(assembled: bool, fails: set<Site>, dev: Device, n: nat,
                              wantX: bool, lenX: nat, wantY: bool, lenY: nat)
    returns (ret: int, outX: Option<seq<byte>>, outY: Option<seq<byte>>,
             submitted: Option<Submission>, waited: Option<Waiting>)
    requires dev.Ready()
    ensures submitted.Some? ==> assembled && submitted.value == Expected(dev.mode, dev.rounds)
    ensures waited.Some? <==> submitted.Some? && submitted.value.outcome == Accepted
    ensures waited.Some? ==> waited.value.iterations == FirstDone(dev.polls, 0) + 1
    ensures ret != -1 ==>
              waited.Some? && dev.verified &&
              ret == (if wantX then n else lenX) &&
              (wantX ==> outX == Some(Fill(dev.first, n))) &&
              (wantY ==> lenY == n && outY == Some(Fill(dev.second, n)))
    ensures (assembled && fails == {} && Expected(dev.mode, dev.rounds).outcome == Accepted &&
             dev.verified && (wantY ==> lenY == n)) ==> ret == (if wantX then n else lenX)
  {
    ret, outX, outY, submitted, waited := -1, None, None, None, None;
    if !assembled { return; }
    if dev.mode.Fiber? && AsyncSetup in fails { return; }
    var sub := SubmitWithRetry(dev.mode, dev.rounds);
    submitted := Some(sub);
    if sub.outcome != Accepted { return; }
    var w := WaitForCompletion(dev.mode.Fiber?, dev.polls);
    waited := Some(w);
    if !dev.verified { return; }
    if wantX {
      if OutputAlloc(First) in fails { return; }
      outX := Some(Fill(dev.first, n));
    }
    if wantY {
      if lenY != n { return; }
      if OutputAlloc(Second) in fails { return; }
      outY := Some(Fill(dev.second, n));
    }
    ret := if wantX then n else lenX;
  }

  /**
   * qat_ecdh_compute_key. wantX / wantY say whether outX / outY are non-NULL;
   * lenX is *outlenX as passed (returned unchanged when outX is NULL) and
   * lenY is *outlenY, which must equal the result length. software is what
   * the software implementation returns for X25519. The output buffers
   * belong to the caller from the moment they are allocated, so they are not
   * in compute-key's books.
   */
  method ComputeKey(key: Option<EcKey>, peer: Point, wantX: bool, lenX: nat, wantY: bool, lenY: nat,
                    fails: set<Site>, dev: Device, software: int)
    returns (r: EcdhResult)
    requires dev.Ready()
    ensures Balanced(r.log) && SecretsCleansed(Exchange, r.log)
    ensures !Usable(key) ==> r.ret == -1 && r.log == [] && r.submitted.None?
    ensures Usable(key) && key.value.group.value.x25519 ==> r.ret == software && r.log == []
    ensures Offloaded(key) && OpDataAlloc in fails ==> r.ret == -1 && r.submitted.None?
    ensures r.submitted.Some? ==>
              Offloaded(key) && r.submitted.value == Expected(dev.mode, dev.rounds) &&
              r.fields == Some(PointMultiplyOf(key.value.priv.value, peer, key.value.group.value))
    ensures r.waited.Some? <==> r.submitted.Some? && r.submitted.value.outcome == Accepted
    ensures r.waited.Some? ==> r.waited.value.iterations == FirstDone(dev.polls, 0) + 1
    ensures Offloaded(key) && r.ret != -1 ==>
              var n := EcdhBuflen(key.value.group.value.degree);
              r.waited.Some? && dev.verified &&
              r.ret == (if wantX then n else lenX) &&
              (wantX ==> r.outX == Some(Fill(dev.first, n))) &&
              (wantY ==> lenY == n && r.outY == Some(Fill(dev.second, n)))
    ensures (Offloaded(key) && fails == {} && Expected(dev.mode, dev.rounds).outcome == Accepted &&
             dev.verified && (wantY ==> lenY == EcdhBuflen(key.value.group.value.degree))) ==>
              r.ret == (if wantX then EcdhBuflen(key.value.group.value.degree) else lenX)
  {
    r := EcdhResult(-1, None, None, None, None, None, []);
    if !Usable(key) {
      return;
    }
    var g := key.value.group.value;
    if g.x25519 {
      r := r.(ret := software);
      return;
    }
    if OpDataAlloc in fails {
      return;
    }
    var arena := Take(Open(Exchange), OpData);
    var fields;
    fields, arena := AssemblePointMultiply(arena, fails, key.value.priv.value, peer, g);
    var ret, outX, outY, submitted, waited :=
      CollectPointMultiply(fields.Some?, fails, dev, EcdhBuflen(g.degree), wantX, lenX, wantY, lenY);
    arena := EcdhCleanup(arena);
    ClosedBalanced(arena);
    r := EcdhResult(ret, outX, outY, fields, submitted, waited, arena.log);
  }

  /* ---------------------------------------------------------------------- */
  /* Key generation                                                         */
  /* ---------------------------------------------------------------------- */

  datatype KeygenResult = KeygenResult(
    ok: int,                       // 1 on success, 0 on failure (or the software result for X25519)
    key: Option<EcKey>,            // the key afterwards: its private and public parts may be replaced
    inner: Option<EcdhResult>,     // the compute-key call for k * G, when reached
    log: seq<Ev<Res>>)

  /**
   * The cleanup block of key generation, in source order: the order, a new
   * public point, a new private key (cleared), the context, the two
   * coordinate buffers compute-key handed over and the four coordinate
   * numbers.
   */
  const KeygenCleanupSteps: seq<Res> :=
    [OrderBn, PubKeyPoint, PrivKeyBn, BnCtx, CallerBuffer(First), CallerBuffer(Second),
     CoordBn(X), CoordBn(Y), CoordBn(Tx), CoordBn(Ty)]

  /** Whatever key generation allocated and still holds is released. */
  method KeygenCleanup(a: Arena) returns (b: Arena)
    requires a.Valid() && a.op == KeyGen
    ensures b.Valid() && b.op == KeyGen && b.live == {}
  {
    LiveOwned(a);
    b := Cleanup(a, KeygenCleanupSteps, {PrivKeyBn});
  }

  /** The public point computed by the accelerator: its two result buffers read as numbers. */
  function ComputedPoint(dev: Device, degree: nat): (p: Point)
    ensures p.x < Pow2(8 * EcdhBuflen(degree)) && p.y < Pow2(8 * EcdhBuflen(degree))
  {
    var n := EcdhBuflen(degree);
    Point(BEValue(Fill(dev.first, n)), BEValue(Fill(dev.second, n)))
  }

  /** Key generation goes to the accelerator: there is a group and it is not X25519. */
  predicate Generates(key: Option<EcKey>)
  {
    key.Some? && key.value.group.Some? && !key.value.group.value.x25519
  }

  /**
   * Key generation reaches BN_rand_range: the order, the context and (when
   * the key has none) a new private key are allocated and the order is
   * reported.
   */
  predicate ReachesDraws(key: EcKey, fails: set<Site>, order: nat)
  {
    OrderAlloc !in fails && CtxAlloc !in fails && (key.priv.None? ==> PrivKeyAlloc !in fails) &&
    OrderReported(order, fails)
  }

  /**
   * What a failed BN_rand_range leaves of the key. The draws go into the
   * key's own private key when it has one, so a zero drawn before the failure
   * stays there; a new private key is freed and the key keeps none.
   */
  function AfterFailedDraw(key: EcKey, draws: seq<Draw>): (k: EcKey)
    requires DrawsEnd(draws)
    ensures k.pub == key.pub && k.group == key.group && k.priv.None? == key.priv.None?
    ensures k.priv != key.priv <==> key.priv.Some? && key.priv.value != 0 && draws[0] == Drew(0)
  {
    if key.priv.Some? && FirstEnd(draws, 0) > 0 then key.(priv := Some(0)) else key
  }

  /**
   * Key generation up to the public point: the order, the context, a new
   * private key when the key has none, the scalar drawn by rejection
   * sampling and stored as the private key, and a new public point when the
   * key has none.
   */
  method KeygenPrelude(a: Arena, fails: set<Site>, key: EcKey, g: Group, draws: seq<Draw>)
    returns (ok: bool, current: EcKey, b: Arena)
    requires a.Valid() && a.op == KeyGen && a.top == 0
    requires DrawsEnd(draws) && InRange(draws, g.order)
    ensures b.Valid() && b.op == KeyGen && b.top <= Rank(KeyGen, PubKeyPoint)
    ensures ok ==> var k := draws[FirstEnd(draws, 0)];
                   k.Drew? && 1 <= k.value < g.order && current == key.(priv := Some(k.value))
    ensures !ReachesDraws(key, fails, g.order) ==> !ok && current == key
    ensures ReachesDraws(key, fails, g.order) && draws[FirstEnd(draws, 0)].RandFailed? ==>
              !ok && current == AfterFailedDraw(key, draws)
  {
    ok, current, b := false, key, a;
    if OrderAlloc in fails { return; }
    b := Take(b, OrderBn);
    if CtxAlloc in fails { return; }
    b := Take(b, BnCtx);
    var allocPriv := key.priv.None?;
    if allocPriv {
      if PrivKeyAlloc in fails { return; }
      b := Take(b, PrivKeyBn);
    }
    if !OrderReported(g.order, fails) { return; }
    var s := SampleScalar(g.order, draws);
    if s.SampleFailed? {
      current := AfterFailedDraw(key, draws);
      return;
    }
    if allocPriv && SetPrivateKey in fails { return; }
    current := key.(priv := Some(s.value));
    if key.pub.None? {
      if PointAlloc in fails { return; }
      b := Take(b, PubKeyPoint);
    }
    ok := true;
  }

  /** Two of the coordinate numbers, in the given order. */
  method CoordinatePair(a: Arena, fails: set<Site>, first: Coord, second: Coord) returns (ok: bool, b: Arena)
    requires a.Valid() && a.op == KeyGen
    requires a.top < Rank(KeyGen, CoordBn(first)) < Rank(KeyGen, CoordBn(second))
    ensures b.Valid() && b.op == KeyGen && b.top <= Rank(KeyGen, CoordBn(second))
    ensures ok <==> CoordAlloc(first) !in fails && CoordAlloc(second) !in fails
    ensures a.live <= b.live && (ok ==> CoordBn(first) in b.live && CoordBn(second) in b.live)
  {
    ok, b := false, a;
    if CoordAlloc(first) in fails { return; }
    b := Take(b, CoordBn(first));
    if CoordAlloc(second) in fails { return; }
    b := Take(b, CoordBn(second));
    ok := true;
  }

  /** None of the four BN_new calls of the consistency check fails. */
  predicate CoordinatesAllocated(fails: set<Site>)
  {
    CoordAlloc(X) !in fails && CoordAlloc(Y) !in fails && CoordAlloc(Tx) !in fails && CoordAlloc(Ty) !in fails
  }

  /** The four coordinate numbers of the consistency check, in source order. */
  method CoordinateNumbers(a: Arena, fails: set<Site>) returns (ok: bool, b: Arena)
    requires a.Valid() && a.op == KeyGen && a.top <= Rank(KeyGen, CallerBuffer(Second))
    ensures b.Valid() && b.op == KeyGen
    ensures ok <==> CoordinatesAllocated(fails)
    ensures ok ==> CoordBn(X) in b.live && CoordBn(Y) in b.live
  {
    ok, b := CoordinatePair(a, fails, X, Y);
    if !ok { return; }
    ok, b := CoordinatePair(b, fails, Tx, Ty);
  }

  /**
   * The consistency check of key generation: the coordinates compute-key
   * returned are loaded into x and y, set as the public point's affine
   * coordinates, read back and compared, and on agreement the point becomes
   * the public key. Setting the coordinates writes the key's own point when
   * it already had one. A load that fails stops the check with both numbers
   * still held, so the cleanup block frees them (the corrected form of the
   * loads; see LoadThenCleanupAsWritten).
   */
  method CoordinateCheck(a: Arena, fails: set<Site>, g: Group, point: Point,
                         readBack: Point, allocPub: bool, current: EcKey)
    returns (ok: bool, next: EcKey, b: Arena)
    requires a.Valid() && a.op == KeyGen && a.top <= Rank(KeyGen, CallerBuffer(Second))
    ensures b.Valid() && b.op == KeyGen
    ensures ok <==> CoordinatesAllocated(fails) &&
                    LoadResult(First) !in fails && LoadResult(Second) !in fails &&
                    g.field != OtherField && SetAffine !in fails && GetAffine !in fails &&
                    readBack == point && SetPublicKey !in fails
    ensures ok ==> next == current.(pub := Some(readBack))
  {
    next := current;
    ok, b := CoordinateNumbers(a, fails);
    if !ok { return; }
    ok := false;
    if LoadResult(First) in fails || LoadResult(Second) in fails { return; }
    if g.field == OtherField || SetAffine in fails { return; }
    if !allocPub {
      next := next.(pub := Some(readBack));
    }
    if GetAffine in fails || readBack != point || SetPublicKey in fails { return; }
    ok, next := true, next.(pub := Some(point));
  }

  /**
   * The coordinate loads as written, then the cleanup block. x_bn and y_bn
   * are overwritten with what BN_bin2bn returns, so a load that fails leaves
   * NULL in place of a number that was allocated, and the NULL-checked frees
   * of the cleanup block pass it by (setting NULL coordinates fails, which is
   * how the cleanup is reached). The numbers so lost stay live: the log does
   * not balance.
   */
  method LoadThenCleanupAsWritten(a: Arena, fails: set<Site>) returns (b: Arena)
    requires a.Valid() && a.op == KeyGen && a.top <= Rank(KeyGen, CallerBuffer(Second))
    ensures b.Valid() && b.op == KeyGen && b.live <= {CoordBn(X), CoordBn(Y)}
    ensures CoordBn(X) in b.live <==> CoordinatesAllocated(fails) && LoadResult(First) in fails
    ensures CoordBn(Y) in b.live <==> CoordinatesAllocated(fails) && LoadResult(Second) in fails
    ensures Balanced(b.log) <==>
              !(CoordinatesAllocated(fails) && (LoadResult(First) in fails || LoadResult(Second) in fails))
  {
    var ok;
    ok, b := CoordinateNumbers(a, fails);
    var lostX := ok && LoadResult(First) in fails;
    var lostY := ok && LoadResult(Second) in fails;
    var order := [OrderBn, PubKeyPoint, PrivKeyBn, BnCtx, CallerBuffer(First), CallerBuffer(Second)] +
                 (if lostX then [] else [CoordBn(X)]) + (if lostY then [] else [CoordBn(Y)]) +
                 [CoordBn(Tx), CoordBn(Ty)];
    assert CoordBn(X) in order <==> !lostX;
    assert CoordBn(Y) in order <==> !lostY;
    assert lostX ==> CoordBn(X) in b.live;
    assert lostY ==> CoordBn(Y) in b.live;
    LiveOwned(b);
    b := Cleanup(b, order, {PrivKeyBn});
  }


  /**
   * The public point of key generation: k * G through compute-key (whose
   * output buffers then belong to key generation), then the consistency
   * check of its coordinates.
   */
  method PublicPoint(a: Arena, fails: set<Site>, innerFails: set<Site>, g: Group, current: EcKey,
                     dev: Device, readBack: Point, allocPub: bool, software: int)
    returns (ok: bool, next: EcKey, inner: EcdhResult, b: Arena)
    requires a.Valid() && a.op == KeyGen && a.top <= Rank(KeyGen, PubKeyPoint)
    requires dev.Ready() && g.degree > 0 && g.generator.Some? && !g.x25519
    requires current.priv.Some? && current.group == Some(g)
    ensures b.Valid() && b.op == KeyGen
    ensures inner.submitted.Some? ==>
              inner.fields == Some(PointMultiplyOf(current.priv.value, g.generator.value, g))
    ensures ok ==> inner.ret > 0 && inner.submitted.Some? &&
                   inner.outX == Some(Fill(dev.first, EcdhBuflen(g.degree))) &&
                   inner.outY == Some(Fill(dev.second, EcdhBuflen(g.degree)))
    ensures ok ==> g.field != OtherField && readBack == ComputedPoint(dev, g.degree) &&
                   next == current.(pub := Some(readBack))
    ensures readBack != ComputedPoint(dev, g.degree) ==> !ok
    ensures (fails == {} && inner.ret > 0 && g.field != OtherField &&
             readBack == ComputedPoint(dev, g.degree)) ==> ok
  {
    var n := EcdhBuflen(g.degree);
    inner := ComputeKey(Some(current), g.generator.value, true, n, true, n, innerFails, dev, software);
    ok, next, b := false, current, a;
    if inner.outX.Some? {
      b := Take(b, CallerBuffer(First));
    }
    if inner.outY.Some? {
      b := Take(b, CallerBuffer(Second));
    }
    if inner.ret <= 0 { return; }
    ok, next, b :=
      CoordinateCheck(b, fails, g, Point(BEValue(inner.outX.value), BEValue(inner.outY.value)),
                      readBack, allocPub, current);
  }

  /**
   * qat_ecdh_generate_key. fails are the calls of key generation itself that
   * fail and innerFails those of the compute-key call it makes; draws feeds
   * BN_rand_range; readBack is what getting the affine coordinates returns
   * after setting them; software is the software implementation's result
   * for X25519.
   */
  method GenerateKey(key: Option<EcKey>, fails: set<Site>, innerFails: set<Site>, draws: seq<Draw>,
                     dev: Device, readBack: Point, software: int)
    returns (r: KeygenResult)
    requires dev.Ready() && DrawsEnd(draws)
    requires key.Some? && key.value.group.Some? ==>
               InRange(draws, key.value.group.value.order) && key.value.group.value.generator.Some?
    ensures Balanced(r.log) && SecretsCleansed(KeyGen, r.log)
    ensures key.None? || key.value.group.None? ==> r.ok == 0 && r.log == []
    ensures key.Some? && key.value.group.Some? && key.value.group.value.x25519 ==>
              r.ok == software && r.log == []
    ensures Generates(key) && r.ok == 1 ==>
              var g := key.value.group.value;
              var k := draws[FirstEnd(draws, 0)];
              k.Drew? && 1 <= k.value < g.order &&
              r.inner.Some? && r.inner.value.ret > 0 && r.inner.value.submitted.Some? &&
              r.inner.value.fields == Some(PointMultiplyOf(k.value, g.generator.value, g)) &&
              g.field != OtherField && readBack == ComputedPoint(dev, g.degree) &&
              r.key == Some(key.value.(priv := Some(k.value), pub := Some(readBack)))
    ensures Generates(key) && r.inner.Some? && r.inner.value.submitted.Some? ==>
              var g := key.value.group.value;
              var k := draws[FirstEnd(draws, 0)];
              k.Drew? && r.inner.value.fields == Some(PointMultiplyOf(k.value, g.generator.value, g))
    ensures Generates(key) && ReachesDraws(key.value, fails, key.value.group.value.order) &&
            draws[FirstEnd(draws, 0)].RandFailed? ==>
              r.ok == 0 && r.inner.None? && r.key == Some(AfterFailedDraw(key.value, draws))
    ensures (Generates(key) && r.inner.Some? &&
             readBack != ComputedPoint(dev, key.value.group.value.degree)) ==> r.ok == 0
    ensures (Generates(key) && fails == {} && r.inner.Some? && r.inner.value.ret > 0 &&
             key.value.group.value.field != OtherField &&
             readBack == ComputedPoint(dev, key.value.group.value.degree)) ==> r.ok == 1
  {
    r := KeygenResult(0, key, None, []);
    if key.None? || key.value.group.None? {
      return;
    }
    var g := key.value.group.value;
    if g.x25519 {
      r := r.(ok := software);
      return;
    }
    var arena := Open(KeyGen);
    var current := key.value;
    var inner: Option<EcdhResult> := None;
    var ok := 0;
    label err: {
      var prepared;
      prepared, current, arena := KeygenPrelude(arena, fails, current, g, draws);
      if !prepared || g.degree == 0 { break err; }
      var checked, e;
      checked, current, e, arena :=
        PublicPoint(arena, fails, innerFails, g, current, dev, readBack, key.value.pub.None?, software);
      inner := Some(e);
      if checked {
        ok := 1;
      }
    }
    arena := KeygenCleanup(arena);
    ClosedBalanced(arena);
    r := KeygenResult(ok, Some(current), inner, arena.log);
  }
}

=== FILE: ecdsa.dfy ===
/**
 * ECDSA on the accelerator. Sign draws a nonce (or takes the caller's
 * precomputed kinv and r), submits the request and reads r and s back from
 * the two result buffers; its front end DER-encodes the signature. Verify's
 * front end lets through only a signature whose DER re-encoding is the
 * input, byte for byte; verify itself rejects r and s outside [1, order - 1]
 * before anything is submitted, and otherwise reports the accelerator's
 * verdict.
 *
 * As for ECDH, every path through a builder leaves the allocation log
 * balanced, and sign releases k and d only by cleansing.
 */
module Ecdsa {
  import opened Common
  import opened Bytes
  import opened Ledger
  import opened Offload
  import opened EcTypes
  import opened Books
  import opened Params
  import opened Digest
  import opened Der

  /* ---------------------------------------------------------------------- */
  /* Shared by sign and verify                                              */
  /* ---------------------------------------------------------------------- */

  /** The digest still has bits in excess after the whole-byte cut, so it is shifted. */
  predicate Shifts(digestLen: nat, order: nat)
  {
    8 * KeptLength(digestLen, NumBits(order)) > NumBits(order)
  }

  /**
   * The digest as the field m: loaded as whole bytes (no more than the order
   * needs), shifted right when bits are still in excess, then converted.
   * Sign and verify both go through here, so they truncate alike.
   */
  method DigestField(a: Arena, fails: set<Site>, digest: seq<byte>, order: nat)
    returns (ok: bool, fm: FlatBuffer, b: Arena)
    requires a.Valid() && a.top < Rank(a.op, Field(M))
    ensures b.Valid() && b.op == a.op && a.top <= b.top <= Rank(a.op, Field(M))
    ensures ok <==> DigestLoad !in fails && !(Shifts(|digest|, order) && DigestShift in fails) &&
                    (TruncateDigest(digest, NumBits(order)) == 0 || ToFlatAlloc(M) !in fails)
    ensures ok ==> fm == FlatOf(LeftmostBits(digest, Min(8 * |digest|, NumBits(order))))
  {
    fm, b := FlatBuffer(None, 0), a;
    if DigestLoad in fails || (Shifts(|digest|, order) && DigestShift in fails) {
      return false, fm, b;
    }
    ok, fm, b := ToFlat(a, fails, M, TruncateDigest(digest, NumBits(order)));
  }

  /**
   * Submission and completion: the async notification (Fiber mode only),
   * the submit loop and, once the request is accepted, the wait loop.
   * Nothing happens unless the request was fully assembled.
   */
  method SubmitAndWait(assembled: bool, fails: set<Site>, dev: Device)
    returns (submitted: Option<Submission>, waited: Option<Waiting>)
    requires dev.Ready()
    ensures submitted.Some? <==> assembled && !(dev.mode.Fiber? && AsyncSetup in fails)
    ensures submitted.Some? ==> submitted.value == Expected(dev.mode, dev.rounds)
    ensures waited.Some? <==> submitted.Some? && submitted.value.outcome == Accepted
    ensures waited.Some? ==> waited.value.iterations == FirstDone(dev.polls, 0) + 1
  {
    submitted, waited := None, None;
    if !assembled || (dev.mode.Fiber? && AsyncSetup in fails) {
      return;
    }
    var sub := SubmitWithRetry(dev.mode, dev.rounds);
    submitted := Some(sub);
    if sub.outcome == Accepted {
      var w := WaitForCompletion(dev.mode.Fiber?, dev.polls);
      waited := Some(w);
    }
  }

  /* ---------------------------------------------------------------------- */
  /* Sign                                                                   */
  /* ---------------------------------------------------------------------- */

  /**
   * The op-data fields of a sign request: the field type (prime or binary),
   * the private key d, the message m, the generator (xg, yg), the curve's
   * a, b and q, and the pair (k, n).
   */
  datatype SignOp = SignOp(prime: bool, d: FlatBuffer, m: FlatBuffer, xg: FlatBuffer, yg: FlatBuffer,
                           a: FlatBuffer, b: FlatBuffer, q: FlatBuffer, k: FlatBuffer, n: FlatBuffer)

  /**
   * The pair sign submits as (k, n): the caller's precomputed kinv and r
   * when both are given, the fresh nonce and the group order otherwise.
   */
  function NoncePair(k: nat, order: nat, kinv: Option<nat>, rIn: Option<nat>): (kn: (nat, nat))
  {
    if kinv.None? || rIn.None? then (k, order) else (kinv.value, rIn.value)
  }

  /** The request sign assembles for private key priv over g with generator gen. */
  function SignOpOf(priv: nat, digest: seq<byte>, g: Group, gen: Point, kn: (nat, nat),
                    fixupFailed: bool): (op: SignOp)
  {
    SignOp(g.field == PrimeField, FlatOf(priv), FlatOf(TruncateDigest(digest, NumBits(g.order))),
           FlatOf(gen.x), FlatOf(gen.y), CoefficientA(g.a, fixupFailed), FlatOf(g.b), FlatOf(g.p),
           FlatOf(kn.0), FlatOf(kn.1))
  }

  /**
   * Each field of the request stands for its number: m for the leftmost
   * bits of the digest, a for the coefficient unless the fix-up's byte was
   * missing (a is never of length 0).
   */
  lemma SignOpOfDenotes(priv: nat, digest: seq<byte>, g: Group, gen: Point, kn: (nat, nat),
                        fixupFailed: bool)
    ensures var op := SignOpOf(priv, digest, g, gen, kn, fixupFailed);
            Denotes(op.d, priv) &&
            Denotes(op.m, LeftmostBits(digest, Min(8 * |digest|, NumBits(g.order)))) &&
            Denotes(op.xg, gen.x) && Denotes(op.yg, gen.y) &&
            op.a.len >= 1 && (!(g.a == 0 && fixupFailed) ==> Denotes(op.a, g.a)) &&
            Denotes(op.b, g.b) && Denotes(op.q, g.p) && Denotes(op.k, kn.0) && Denotes(op.n, kn.1)
  {
    FlatOfDenotes(priv);
    FlatOfDenotes(TruncateDigest(digest, NumBits(g.order)));
    FlatOfDenotes(gen.x);
    FlatOfDenotes(gen.y);
    CoefficientADenotes(g.a, fixupFailed);
    FlatOfDenotes(g.b);
    FlatOfDenotes(g.p);
    FlatOfDenotes(kn.0);
    FlatOfDenotes(kn.1);
  }

  /**
   * The new signature's r and s, read from the two result buffers of n
   * bytes each into the numbers BN_new made. The result of each BN_bin2bn
   * is ignored: a load that fails leaves its number at zero, and the
   * signature is handed out all the same.
   */
  function SignatureFrom(dev: Device, n: nat, fails: set<Site>): (sig: Signature)
    ensures 0 <= sig.r < Pow2(8 * n) && 0 <= sig.s < Pow2(8 * n)
    ensures LoadResult(First) !in fails ==> Denotes(FlatBuffer(Some(Fill(dev.first, n)), n), sig.r as nat)
    ensures LoadResult(Second) !in fails ==> Denotes(FlatBuffer(Some(Fill(dev.second, n)), n), sig.s as nat)
    ensures LoadResult(First) in fails ==> sig.r == 0
    ensures LoadResult(Second) in fails ==> sig.s == 0
  {
    Signature(if LoadResult(First) in fails then 0 else BEValue(Fill(dev.first, n)),
              if LoadResult(Second) in fails then 0 else BEValue(Fill(dev.second, n)))
  }

  /** The two BN_new calls for r and s, each of which may fail. */
  function NewComponents(fails: set<Site>): (c: Arena)
    ensures c.Valid() && c.op == Components
    ensures SigBn(R) in c.live <==> SigBnAlloc(R) !in fails
    ensures SigBn(S) in c.live <==> SigBnAlloc(S) !in fails
    ensures c.live <= {SigBn(R), SigBn(S)}
  {
    var a := Open(Components);
    var c := if SigBnAlloc(R) in fails then a else Acquired(a, SigBn(R));
    if SigBnAlloc(S) in fails then c else Acquired(c, SigBn(S))
  }

  /**
   * r and s as the source attaches them: ECDSA_SIG_set0 takes both only when
   * neither is NULL, and on refusal nothing frees the one that was created.
   */
  function AttachAsWritten(fails: set<Site>): (res: (bool, Arena))
    ensures res.1.Valid() && res.1.op == Components
    ensures res.0 <==> SigBnAlloc(R) !in fails && SigBnAlloc(S) !in fails
    ensures res.0 ==> res.1.live == {}
    ensures !res.0 ==> (SigBn(R) in res.1.live <==> SigBnAlloc(R) !in fails) &&
                       (SigBn(S) in res.1.live <==> SigBnAlloc(S) !in fails)
  {
    var c := NewComponents(fails);
    if SigBnAlloc(R) !in fails && SigBnAlloc(S) !in fails then
      (true, Give(Give(c, SigBn(R), HandOver), SigBn(S), HandOver))
    else (false, c)
  }

  /** When s cannot be created, r is created, not attached and never freed. */
  lemma AttachAsWrittenLeaks()
    ensures var res := AttachAsWritten({SigBnAlloc(S)});
            !res.0 && SigBn(R) in res.1.live && !Balanced(res.1.log)
  {
  }

  /**
   * r and s attached as intended: handed to the signature when both exist,
   * otherwise the one that was created is freed.
   */
  function AttachComponents(fails: set<Site>): (res: (bool, Arena))
    ensures res.1.Valid() && res.1.op == Components && res.1.live == {}
    ensures res.0 <==> SigBnAlloc(R) !in fails && SigBnAlloc(S) !in fails
  {
    var c := NewComponents(fails);
    if SigBnAlloc(R) !in fails && SigBnAlloc(S) !in fails then
      (true, Give(Give(c, SigBn(R), HandOver), SigBn(S), HandOver))
    else (false, Give(Give(c, SigBn(R), Free), SigBn(S), Free))
  }

  /** The correction changes nothing when both numbers are created, and always balances. */
  lemma AttachComponentsCorrects(fails: set<Site>)
    ensures Balanced(AttachComponents(fails).1.log)
    ensures SigBnAlloc(R) !in fails && SigBnAlloc(S) !in fails ==>
              AttachComponents(fails) == AttachAsWritten(fails)
  {
    ClosedBalanced(AttachComponents(fails).1);
  }

  /**
   * The context, the private key d, the order, and the digest as m, in
   * source order.
   */
  method KeyAndDigest(a: Arena, fails: set<Site>, priv: nat, digest: seq<byte>, order: nat)
    returns (ok: bool, fd: FlatBuffer, fm: FlatBuffer, b: Arena)
    requires a.Valid() && a.op == Signing && a.top <= Rank(Signing, SigObject)
    ensures b.Valid() && b.op == Signing && b.top <= Rank(Signing, Field(M))
    ensures ok ==> fd == FlatOf(priv) && fm == FlatOf(TruncateDigest(digest, NumBits(order)))
    ensures fails == {} && order != 0 ==> ok
  {
    ok, fd, fm, b := false, FlatBuffer(None, 0), FlatBuffer(None, 0), a;
    if CtxAlloc in fails { return; }
    b := Take(b, BnCtx);
    if CtxGet in fails { return; }
    ok, fd, b := ToFlat(b, fails, D, priv);
    if !ok { return; }
    if !OrderReported(order, fails) { return false, fd, fm, b; }
    ok, fm, b := DigestField(b, fails, digest, order);
  }

  /**
   * The curve and the generator (and, for verify, the public key) read from
   * the library, any field that is not prime being taken as binary; then
   * the generator's coordinates and the coefficients. A failed zero fix-up
   * does not stop sign or verify.
   */
  method CurveFields(a: Arena, fails: set<Site>, g: Group, gen: Point, readsPublicKey: bool)
    returns (ok: bool, fx: FlatBuffer, fy: FlatBuffer, fa: FlatBuffer, fb: FlatBuffer, fq: FlatBuffer,
             b: Arena)
    requires a.Valid() && a.top < Rank(a.op, Field(Xg)) && Rank(a.op, Field(Xg)) < Rank(a.op, Field(Yg))
    requires Rank(a.op, Field(Yg)) < Rank(a.op, Field(A)) < Rank(a.op, Field(B)) < Rank(a.op, Field(Q))
    ensures b.Valid() && b.op == a.op && b.top <= Rank(a.op, Field(Q))
    ensures ok ==> fx == FlatOf(gen.x) && fy == FlatOf(gen.y) &&
                   fa == CoefficientA(g.a, ZeroCoefficientAlloc in fails) &&
                   fb == FlatOf(g.b) && fq == FlatOf(g.p)
    ensures fails == {} ==> ok
  {
    fx, fy, fa, fb, fq, b := FlatBuffer(None, 0), FlatBuffer(None, 0), FlatBuffer(None, 0),
                             FlatBuffer(None, 0), FlatBuffer(None, 0), a;
    if CurveQuery in fails || AffineQuery(Generator) in fails ||
       (readsPublicKey && AffineQuery(PublicKey) in fails) {
      return false, fx, fy, fa, fb, fq, b;
    }
    ok, fx, fy, b := PointFields(b, fails, gen, Xg, Yg);
    if !ok { return; }
    ok, fa, fb, fq, b := CoefficientFields(b, fails, g, false);
  }

  /** The fields k and n: the precomputed pair when both halves are given, else the nonce and the order. */
  method NonceFields(a: Arena, fails: set<Site>, k: nat, order: nat, kinv: Option<nat>, rIn: Option<nat>)
    returns (ok: bool, fk: FlatBuffer, fn: FlatBuffer, b: Arena)
    requires a.Valid() && a.op == Signing && a.top <= Rank(Signing, Field(Q))
    ensures b.Valid() && b.op == Signing && b.top <= Rank(Signing, Field(N))
    ensures ok ==> fk == FlatOf(NoncePair(k, order, kinv, rIn).0) && fn == FlatOf(NoncePair(k, order, kinv, rIn).1)
    ensures fails == {} ==> ok
  {
    var kn := NoncePair(k, order, kinv, rIn);
    fn := FlatBuffer(None, 0);
    ok, fk, b := ToFlat(a, fails, K, kn.0);
    if !ok { return; }
    ok, fn, b := ToFlat(b, fails, N, kn.1);
  }

  /**
   * The context, d and m, then the nonce drawn by rejection sampling (the
   * draw happens whether or not the caller gave a precomputed pair).
   */
  method SignScalars(a: Arena, fails: set<Site>, priv: nat, digest: seq<byte>, order: nat, draws: seq<Draw>)
    returns (ok: bool, fd: FlatBuffer, fm: FlatBuffer, nonce: nat, b: Arena)
    requires a.Valid() && a.op == Signing && a.top == Rank(Signing, SigObject)
    requires DrawsEnd(draws) && InRange(draws, order)
    ensures b.Valid() && b.op == Signing && b.top <= Rank(Signing, Field(M))
    ensures ok ==> fd == FlatOf(priv) && fm == FlatOf(TruncateDigest(digest, NumBits(order)))
    ensures ok ==> var k := draws[FirstEnd(draws, 0)];
                   k.Drew? && nonce == k.value && 1 <= k.value < order
    ensures fails == {} && draws[FirstEnd(draws, 0)].Drew? ==> ok
  {
    nonce := 0;
    ok, fd, fm, b := KeyAndDigest(a, fails, priv, digest, order);
    if !ok { return; }
    var s := SampleScalar(order, draws);
    if s.SampleFailed? { return false, fd, fm, nonce, b; }
    nonce := s.value;
  }

  /** k and n, then the two result buffers. */
  method NonceAndBuffers(a: Arena, fails: set<Site>, k: nat, order: nat, kinv: Option<nat>, rIn: Option<nat>)
    returns (ok: bool, fk: FlatBuffer, fn: FlatBuffer, b: Arena)
    requires a.Valid() && a.op == Signing && a.top <= Rank(Signing, Field(Q))
    ensures b.Valid() && b.op == Signing
    ensures ok ==> fk == FlatOf(NoncePair(k, order, kinv, rIn).0) && fn == FlatOf(NoncePair(k, order, kinv, rIn).1)
    ensures fails == {} ==> ok
  {
    ok, fk, fn, b := NonceFields(a, fails, k, order, kinv, rIn);
    if !ok { return; }
    ok, b := ResultBuffers(b, fails);
  }

  /** The generator, the coefficients, k and n, and the result buffers, in source order. */
  method SignOperands(a: Arena, fails: set<Site>, g: Group, gen: Point, k: nat, kinv: Option<nat>,
                      rIn: Option<nat>)
    returns (ok: bool, fx: FlatBuffer, fy: FlatBuffer, fa: FlatBuffer, fb: FlatBuffer, fq: FlatBuffer,
             fk: FlatBuffer, fn: FlatBuffer, b: Arena)
    requires a.Valid() && a.op == Signing && a.top <= Rank(Signing, Field(M))
    ensures b.Valid() && b.op == Signing
    ensures ok ==> fx == FlatOf(gen.x) && fy == FlatOf(gen.y) &&
                   fa == CoefficientA(g.a, ZeroCoefficientAlloc in fails) &&
                   fb == FlatOf(g.b) && fq == FlatOf(g.p) &&
                   fk == FlatOf(NoncePair(k, g.order, kinv, rIn).0) &&
                   fn == FlatOf(NoncePair(k, g.order, kinv, rIn).1)
    ensures fails == {} ==> ok
  {
    fk, fn := FlatBuffer(None, 0), FlatBuffer(None, 0);
    ok, fx, fy, fa, fb, fq, b := CurveFields(a, fails, g, gen, false);
    if !ok { return; }
    ok, fk, fn, b := NonceAndBuffers(b, fails, k, g.order, kinv, rIn);
  }

  /**
   * Sign from the context to the result buffers, in source order. nonce is
   * the scalar drawn, when the draw was reached and succeeded.
   */
  method AssembleSign(a: Arena, fails: set<Site>, priv: nat, digest: seq<byte>, g: Group, gen: Point,
                      kinv: Option<nat>, rIn: Option<nat>, draws: seq<Draw>)
    returns (fields: Option<SignOp>, nonce: Option<nat>, b: Arena)
    requires a.Valid() && a.op == Signing && a.top == Rank(Signing, SigObject)
    requires DrawsEnd(draws) && InRange(draws, g.order)
    ensures b.Valid() && b.op == Signing
    ensures nonce.Some? ==> var k := draws[FirstEnd(draws, 0)];
                            k.Drew? && nonce.value == k.value && 1 <= k.value < g.order
    ensures fields.Some? ==>
              nonce.Some? &&
              fields.value == SignOpOf(priv, digest, g, gen, NoncePair(nonce.value, g.order, kinv, rIn),
                                       ZeroCoefficientAlloc in fails)
    ensures fields.Some? && kinv.Some? && rIn.Some? ==>
              fields.value.k == FlatOf(kinv.value) && fields.value.n == FlatOf(rIn.value)
    ensures fields.Some? && (kinv.None? || rIn.None?) ==>
              fields.value.k == FlatOf(nonce.value) && fields.value.n == FlatOf(g.order)
    ensures fails == {} && draws[FirstEnd(draws, 0)].Drew? ==> fields.Some?
  {
    fields, nonce := None, None;
    var ok, fd, fm, k, fx, fy, fa, fb, fq, fk, fn;
    ok, fd, fm, k, b := SignScalars(a, fails, priv, digest, g.order, draws);
    if !ok { return; }
    nonce := Some(k);
    ok, fx, fy, fa, fb, fq, fk, fn, b := SignOperands(b, fails, g, gen, k, kinv, rIn);
    if !ok { return; }
    fields := Some(SignOp(g.field == PrimeField, fd, fm, fx, fy, fa, fb, fq, fk, fn));
  }

  /**
   * The cleanup block of sign, after the signature object (freed on failure,
   * handed to the caller on success): the result buffers, the fields with k
   * and d cleansed, the op-data and the context.
   */
  const SignCleanupOrder: seq<Res> :=
    [ResultData(First), ResultHeader(First), ResultData(Second), ResultHeader(Second),
     Field(N), Field(M), Field(Xg), Field(Yg), Field(A), Field(B), Field(Q), Field(K), Field(D),
     OpData, BnCtx]

  /** Whatever sign allocated and still holds is released or handed over. */
  method SignCleanup(a: Arena, signed: bool) returns (b: Arena)
    requires a.Valid() && a.op == Signing
    ensures b.Valid() && b.op == Signing && b.live == {}
  {
    LiveOwned(a);
    var c := Give(a, SigObject, if signed then HandOver else Free);
    b := Cleanup(c, SignCleanupOrder, {Field(K), Field(D)});
  }

  /** What do-sign hands back, and what it did on the way. */
  datatype SignResult = SignResult(
    sig: Option<Signature>,         // the new signature, or NULL
    fields: Option<SignOp>,         // the op-data fields, when assembled
    nonce: Option<nat>,             // the nonce drawn, when the draw succeeded
    submitted: Option<Submission>,  // the submit loop, when reached
    waited: Option<Waiting>,        // the wait loop, when reached
    log: seq<Ev<Res>>,              // allocations and releases
    parts: seq<Ev<Res>>)            // those of the new signature's r and s

  /** Sign has what it insists on: a group with a generator, a private key and a public key. */
  predicate Signable(key: EcKey)
  {
    key.group.Some? && key.priv.Some? && key.pub.Some? && key.group.value.generator.Some?
  }

  /**
   * qat_ecdsa_do_sign. kinv and rIn are the caller's precomputed pair (each
   * may be NULL); draws feeds BN_rand_range for the nonce.
   */
  method DoSign(digest: seq<byte>, kinv: Option<nat>, rIn: Option<nat>, key: EcKey, fails: set<Site>,
                draws: seq<Draw>, dev: Device)
    returns (r: SignResult)
    requires dev.Ready() && DrawsEnd(draws)
    requires key.group.Some? ==> InRange(draws, key.group.value.order)
    ensures Balanced(r.log) && SecretsCleansed(Signing, r.log) && Balanced(r.parts)
    ensures !Signable(key) || OpDataAlloc in fails ==> r.sig.None? && r.log == [] && r.submitted.None?
    ensures Signable(key) && OpDataAlloc !in fails && SigAlloc !in fails ==>
              r.parts == AttachComponents(fails).1.log
    ensures r.nonce.Some? ==> var k := draws[FirstEnd(draws, 0)];
                              Signable(key) && k.Drew? && r.nonce.value == k.value &&
                              1 <= k.value < key.group.value.order
    ensures r.submitted.Some? ==>
              Signable(key) && r.nonce.Some? && r.submitted.value == Expected(dev.mode, dev.rounds) &&
              r.fields == Some(SignOpOf(key.priv.value, digest, key.group.value, key.group.value.generator.value,
                                        NoncePair(r.nonce.value, key.group.value.order, kinv, rIn),
                                        ZeroCoefficientAlloc in fails))
    ensures r.waited.Some? <==> r.submitted.Some? && r.submitted.value.outcome == Accepted
    ensures r.sig.Some? <==> r.waited.Some? && dev.verified
    ensures r.sig.Some? ==> r.sig == Some(SignatureFrom(dev, SignBuflen(key.group.value.degree), fails))
    ensures (Signable(key) && fails == {} && draws[FirstEnd(draws, 0)].Drew? &&
             Expected(dev.mode, dev.rounds).outcome == Accepted && dev.verified) ==> r.sig.Some?
  {
    r := SignResult(None, None, None, None, None, [], []);
    if !Signable(key) || OpDataAlloc in fails {
      return;
    }
    var g := key.group.value;
    var arena := Take(Open(Signing), OpData);
    var parts := Open(Components);
    var fields: Option<SignOp> := None;
    var nonce: Option<nat> := None;
    label err: {
      if SigAlloc in fails { break err; }
      arena := Take(arena, SigObject);
      var attached := AttachComponents(fails);
      parts := attached.1;
      if !attached.0 { break err; }
      fields, nonce, arena := AssembleSign(arena, fails, key.priv.value, digest, g, g.generator.value,
                                           kinv, rIn, draws);
    }
    var submitted, waited := SubmitAndWait(fields.Some?, fails, dev);
    var sig := if waited.Some? && dev.verified then Some(SignatureFrom(dev, SignBuflen(g.degree), fails)) else None;
    arena := SignCleanup(arena, sig.Some?);
    ClosedBalanced(arena);
    ClosedBalanced(parts);
    r := SignResult(sig, fields, nonce, submitted, waited, arena.log, parts.log);
  }

  /** What qat_ecdsa_sign hands back: the return value, *siglen, the bytes written, and do-sign's run. */
  datatype SignOutput = SignOutput(ret: int, siglen: nat, der: Option<seq<byte>>, inner: SignResult)

  /**
   * The largest value of the unsigned int *siglen: i2d_ECDSA_SIG's -1 on an
   * encoding failure, stored there as is.
   */
  const UintMax: nat := 0xFFFF_FFFF

  /**
   * qat_ecdsa_sign: do-sign, then the signature's DER encoding and its
   * length. Seeding the random generator from the digest is not modelled.
   */
  method Sign(digest: seq<byte>, kinv: Option<nat>, rIn: Option<nat>, key: EcKey, fails: set<Site>,
              draws: seq<Draw>, dev: Device)
    returns (out: SignOutput)
    requires dev.Ready() && DrawsEnd(draws)
    requires key.group.Some? ==> InRange(draws, key.group.value.order)
    ensures out.ret == (if out.inner.sig.Some? then 1 else 0)
    ensures out.inner.sig.None? ==> out.siglen == 0 && out.der.None?
    ensures out.der.Some? ==>
              out.inner.sig.Some? && EncodeSignature(out.inner.sig.value) == out.der &&
              out.siglen == |out.der.value|
    ensures out.der.Some? ==> CanonicalDecode(out.der.value) == out.inner.sig
    ensures out.inner.sig.Some? && out.der.None? ==> out.siglen == UintMax
    ensures out.inner.sig.Some? && EncodeSignature(out.inner.sig.value).Some? ==> out.der.Some?
  {
    var inner := DoSign(digest, kinv, rIn, key, fails, draws, dev);
    if inner.sig.None? {
      return SignOutput(0, 0, None, inner);
    }
    var der := EncodeSignature(inner.sig.value);
    if der.None? {
      return SignOutput(1, UintMax, None, inner);
    }
    CanonicalDecodeAcceptsExactlyEncodings(der.value, inner.sig.value);
    out := SignOutput(1, |der.value|, der, inner);
  }

  /* ---------------------------------------------------------------------- */
  /* Verify                                                                 */
  /* ---------------------------------------------------------------------- */

  /**
   * The op-data fields of a verify request: the field type, m, the
   * generator, a, b and q, the order n, the signature (r, s) and the public
   * key (xp, yp).
   */
  datatype VerifyOp = VerifyOp(prime: bool, m: FlatBuffer, xg: FlatBuffer, yg: FlatBuffer,
                               a: FlatBuffer, b: FlatBuffer, q: FlatBuffer, n: FlatBuffer,
                               r: FlatBuffer, s: FlatBuffer, xp: FlatBuffer, yp: FlatBuffer)

  /** Section 4.1.4 step 1 of SEC 1 v2: r and s both lie in [1, order - 1]. */
  predicate InOrderRange(sig: Signature, order: nat)
  {
    0 < sig.r < order && 0 < sig.s < order
  }

  /** The pre-check as verify writes it: zero, negative, or not below the order in magnitude. */
  predicate RangeRejects(sig: Signature, order: nat)
  {
    sig.r == 0 || sig.r < 0 || Magnitude(sig.r) >= order ||
    sig.s == 0 || sig.s < 0 || Magnitude(sig.s) >= order
  }

  /** The pre-check rejects exactly the signatures outside the range. */
  lemma RangeRejectsOutside(sig: Signature, order: nat)
    ensures RangeRejects(sig, order) <==> !InOrderRange(sig, order)
  {
  }

  /**
   * A signature whose r or s could not be loaded is one that verify's own
   * range check refuses, whatever the order: sign can hand out a signature
   * that verify rejects before anything is submitted.
   */
  lemma FailedLoadOutOfRange(dev: Device, n: nat, fails: set<Site>, order: nat)
    requires LoadResult(First) in fails || LoadResult(Second) in fails
    ensures !InOrderRange(SignatureFrom(dev, n, fails), order)
    ensures RangeRejects(SignatureFrom(dev, n, fails), order)
  {
  }

  /** The request verify assembles for sig against public key pub over g with generator gen. */
  function VerifyOpOf(digest: seq<byte>, g: Group, gen: Point, pub: Point, sig: Signature,
                      fixupFailed: bool): (op: VerifyOp)
    requires sig.r >= 0 && sig.s >= 0
  {
    VerifyOp(g.field == PrimeField, FlatOf(TruncateDigest(digest, NumBits(g.order))),
             FlatOf(gen.x), FlatOf(gen.y), CoefficientA(g.a, fixupFailed), FlatOf(g.b), FlatOf(g.p),
             FlatOf(g.order), FlatOf(sig.r as nat), FlatOf(sig.s as nat), FlatOf(pub.x), FlatOf(pub.y))
  }

  /** Sign and verify of the same digest over the same group submit the same m. */
  lemma SameMessage(priv: nat, digest: seq<byte>, g: Group, gen: Point, kn: (nat, nat), pub: Point,
                    sig: Signature, f1: bool, f2: bool)
    requires sig.r >= 0 && sig.s >= 0
    ensures SignOpOf(priv, digest, g, gen, kn, f1).m == VerifyOpOf(digest, g, gen, pub, sig, f2).m
    ensures Denotes(VerifyOpOf(digest, g, gen, pub, sig, f2).m,
                    LeftmostBits(digest, Min(8 * |digest|, NumBits(g.order))))
  {
    FlatOfDenotes(TruncateDigest(digest, NumBits(g.order)));
  }

  /** The context, its numbers and the order, in source order. */
  method VerifyPrelude(a: Arena, fails: set<Site>, order: nat) returns (ok: bool, b: Arena)
    requires a.Valid() && a.op == Verifying && a.top == Rank(Verifying, OpData)
    ensures b.Valid() && b.op == Verifying && b.top <= Rank(Verifying, BnCtx)
    ensures ok <==> CtxAlloc !in fails && CtxGet !in fails && OrderReported(order, fails)
  {
    ok, b := false, a;
    if CtxAlloc in fails { return; }
    b := Take(b, BnCtx);
    ok := CtxGet !in fails && OrderReported(order, fails);
  }

  /** The order and the signature, in source order. */
  method SignatureFields(a: Arena, fails: set<Site>, order: nat, sig: Signature)
    returns (ok: bool, fn: FlatBuffer, fr: FlatBuffer, fs: FlatBuffer, b: Arena)
    requires a.Valid() && a.op == Verifying && a.top <= Rank(Verifying, Field(Q))
    requires sig.r >= 0 && sig.s >= 0
    ensures b.Valid() && b.op == Verifying && b.top <= Rank(Verifying, Field(S))
    ensures ok ==> fn == FlatOf(order) && fr == FlatOf(sig.r as nat) && fs == FlatOf(sig.s as nat)
    ensures fails == {} ==> ok
  {
    fr, fs := FlatBuffer(None, 0), FlatBuffer(None, 0);
    ok, fn, b := ToFlat(a, fails, N, order);
    if !ok { return; }
    ok, fr, b := ToFlat(b, fails, R, sig.r as nat);
    if !ok { return; }
    ok, fs, b := ToFlat(b, fails, S, sig.s as nat);
  }

  /** The order, the signature and the public key's coordinates, in source order. */
  method KeyFields(a: Arena, fails: set<Site>, order: nat, sig: Signature, pub: Point)
    returns (ok: bool, fn: FlatBuffer, fr: FlatBuffer, fs: FlatBuffer, fx: FlatBuffer, fy: FlatBuffer,
             b: Arena)
    requires a.Valid() && a.op == Verifying && a.top <= Rank(Verifying, Field(Q))
    requires sig.r >= 0 && sig.s >= 0
    ensures b.Valid() && b.op == Verifying
    ensures ok ==> fn == FlatOf(order) && fr == FlatOf(sig.r as nat) && fs == FlatOf(sig.s as nat) &&
                   fx == FlatOf(pub.x) && fy == FlatOf(pub.y)
    ensures fails == {} ==> ok
  {
    fx, fy := FlatBuffer(None, 0), FlatBuffer(None, 0);
    ok, fn, fr, fs, b := SignatureFields(a, fails, order, sig);
    if !ok { return; }
    ok, fx, fy, b := PointFields(b, fails, pub, Xp, Yp);
  }

  /** The curve, the generator, the coefficients, the order, the signature and the public key. */
  method CurveAndKey(a: Arena, fails: set<Site>, g: Group, gen: Point, pub: Point, sig: Signature)
    returns (ok: bool, fx: FlatBuffer, fy: FlatBuffer, fa: FlatBuffer, fb: FlatBuffer, fq: FlatBuffer,
             fn: FlatBuffer, fr: FlatBuffer, fs: FlatBuffer, fxp: FlatBuffer, fyp: FlatBuffer, b: Arena)
    requires a.Valid() && a.op == Verifying && a.top <= Rank(Verifying, Field(M))
    requires sig.r >= 0 && sig.s >= 0
    ensures b.Valid() && b.op == Verifying
    ensures ok ==> fx == FlatOf(gen.x) && fy == FlatOf(gen.y) &&
                   fa == CoefficientA(g.a, ZeroCoefficientAlloc in fails) &&
                   fb == FlatOf(g.b) && fq == FlatOf(g.p) &&
                   fn == FlatOf(g.order) && fr == FlatOf(sig.r as nat) && fs == FlatOf(sig.s as nat) &&
                   fxp == FlatOf(pub.x) && fyp == FlatOf(pub.y)
    ensures fails == {} ==> ok
  {
    fn, fr, fs, fxp, fyp := FlatBuffer(None, 0), FlatBuffer(None, 0), FlatBuffer(None, 0),
                            FlatBuffer(None, 0), FlatBuffer(None, 0);
    ok, fx, fy, fa, fb, fq, b := CurveFields(a, fails, g, gen, true);
    if !ok { return; }
    ok, fn, fr, fs, fxp, fyp, b := KeyFields(b, fails, g.order, sig, pub);
  }

  /** Verify from the digest to the last field, in source order, for a signature in range. */
  method AssembleVerify(a: Arena, fails: set<Site>, digest: seq<byte>, g: Group, gen: Point, pub: Point,
                        sig: Signature)
    returns (fields: Option<VerifyOp>, b: Arena)
    requires a.Valid() && a.op == Verifying && a.top <= Rank(Verifying, BnCtx)
    requires InOrderRange(sig, g.order)
    ensures b.Valid() && b.op == Verifying
    ensures fields.Some? ==> fields.value == VerifyOpOf(digest, g, gen, pub, sig, ZeroCoefficientAlloc in fails)
    ensures fails == {} ==> fields.Some?
  {
    fields := None;
    var ok, fm, fx, fy, fa, fb, fq, fn, fr, fs, fxp, fyp;
    ok, fm, b := DigestField(a, fails, digest, g.order);
    if !ok { return; }
    ok, fx, fy, fa, fb, fq, fn, fr, fs, fxp, fyp, b := CurveAndKey(b, fails, g, gen, pub, sig);
    if !ok { return; }
    fields := Some(VerifyOp(g.field == PrimeField, fm, fx, fy, fa, fb, fq, fn, fr, fs, fxp, fyp));
  }

  /** The cleanup block of verify, in source order; nothing in it is secret. */
  const VerifyCleanupOrder: seq<Res> :=
    [Field(R), Field(S), Field(N), Field(M), Field(Xg), Field(Yg), Field(A), Field(B), Field(Q),
     Field(Xp), Field(Yp), OpData, BnCtx]

  /** Whatever verify allocated and still holds is released. */
  method VerifyCleanup(a: Arena) returns (b: Arena)
    requires a.Valid() && a.op == Verifying
    ensures b.Valid() && b.op == Verifying && b.live == {}
  {
    LiveOwned(a);
    b := Cleanup(a, VerifyCleanupOrder, {});
  }

  /** What do-verify returns, and what it did on the way. */
  datatype VerifyResult = VerifyResult(
    ret: int,                       // 1: the accelerator confirmed, 0: out of range, -1: otherwise
    fields: Option<VerifyOp>,       // the op-data fields, when assembled
    submitted: Option<Submission>,  // the submit loop, when reached
    waited: Option<Waiting>,        // the wait loop, when reached
    log: seq<Ev<Res>>)              // allocations and releases

  /** Verify has what it insists on: a group with a generator, a public key and a signature. */
  predicate Verifiable(key: EcKey, sig: Option<Signature>)
  {
    key.group.Some? && key.pub.Some? && sig.Some? && key.group.value.generator.Some?
  }

  /** The range pre-check is reached and rejects the signature. */
  predicate PreCheckRejects(key: EcKey, sig: Option<Signature>, fails: set<Site>)
  {
    Verifiable(key, sig) && OpDataAlloc !in fails && CtxAlloc !in fails && CtxGet !in fails &&
    OrderReported(key.group.value.order, fails) && !InOrderRange(sig.value, key.group.value.order)
  }

  /**
   * qat_ecdsa_do_verify. The result is 1 only when the accelerator reports
   * the signature valid, 0 only when the range pre-check rejects it (before
   * any submission), and -1 in every other case, an accelerator verdict of
   * "invalid" included.
   */
  method DoVerify(digest: seq<byte>, sig: Option<Signature>, key: EcKey, fails: set<Site>, dev: Device)
    returns (r: VerifyResult)
    requires dev.Ready()
    ensures Balanced(r.log)
    ensures -1 <= r.ret <= 1
    ensures !Verifiable(key, sig) || OpDataAlloc in fails ==> r.ret == -1 && r.log == [] && r.submitted.None?
    ensures r.ret == 0 <==> PreCheckRejects(key, sig, fails)
    ensures r.ret == 0 ==> r.submitted.None?
    ensures r.submitted.Some? ==>
              Verifiable(key, sig) && InOrderRange(sig.value, key.group.value.order) &&
              r.submitted.value == Expected(dev.mode, dev.rounds) &&
              r.fields == Some(VerifyOpOf(digest, key.group.value, key.group.value.generator.value,
                                          key.pub.value, sig.value, ZeroCoefficientAlloc in fails))
    ensures r.waited.Some? <==> r.submitted.Some? && r.submitted.value.outcome == Accepted
    ensures r.ret == 1 <==> r.waited.Some? && dev.verified
    ensures (Verifiable(key, sig) && InOrderRange(sig.value, key.group.value.order) && fails == {} &&
             Expected(dev.mode, dev.rounds).outcome == Accepted) ==> r.ret == (if dev.verified then 1 else -1)
  {
    r := VerifyResult(-1, None, None, None, []);
    if !Verifiable(key, sig) || OpDataAlloc in fails {
      return;
    }
    var g := key.group.value;
    var arena := Take(Open(Verifying), OpData);
    var ret := -1;
    var fields: Option<VerifyOp> := None;
    var submitted: Option<Submission> := None;
    var waited: Option<Waiting> := None;
    label err: {
      var ok;
      ok, arena := VerifyPrelude(arena, fails, g.order);
      if !ok { break err; }
      RangeRejectsOutside(sig.value, g.order);
      if RangeRejects(sig.value, g.order) {
        ret := 0;
        break err;
      }
      fields, arena := AssembleVerify(arena, fails, digest, g, g.generator.value, key.pub.value, sig.value);
      submitted, waited := SubmitAndWait(fields.Some?, fails, dev);
      if waited.Some? && dev.verified {
        ret := 1;
      }
    }
    arena := VerifyCleanup(arena);
    ClosedBalanced(arena);
    r := VerifyResult(ret, fields, submitted, waited, arena.log);
  }

  /** None of the allocations of verify's front end fails. */
  predicate FrontEndAllocates(fails: set<Site>)
  {
    SigAlloc !in fails && SigDecodeAlloc !in fails && SigEncodeAlloc !in fails
  }

  /**
   * qat_ecdsa_verify: a new signature object, the lenient decode, the
   * re-encoding that must give back the input exactly, then do-verify. An
   * allocation failure inside the decode or the re-encoding is an error,
   * like input that does not decode or re-encodes differently.
   */
  method Verify(digest: seq<byte>, sigbuf: seq<byte>, key: EcKey, fails: set<Site>, dev: Device)
    returns (ret: int, inner: Option<VerifyResult>)
    requires dev.Ready()
    ensures -1 <= ret <= 1
    ensures inner.Some? <==> FrontEndAllocates(fails) && CanonicalDecode(sigbuf).Some?
    ensures inner.None? ==> ret == -1
    ensures inner.Some? ==> ret == inner.value.ret
    ensures ret != -1 ==>
              DecodeSignature(sigbuf).Some? && EncodeSignature(DecodeSignature(sigbuf).value) == Some(sigbuf)
    ensures ret == 0 <==> FrontEndAllocates(fails) && PreCheckRejects(key, CanonicalDecode(sigbuf), fails)
    ensures ret == 1 <==> inner.Some? && inner.value.waited.Some? && dev.verified
  {
    inner := None;
    ret := -1;
    if SigAlloc in fails || SigDecodeAlloc in fails {
      return;
    }
    var sig := CanonicalDecode(sigbuf);
    if sig.None? || SigEncodeAlloc in fails {
      return;
    }
    var v := DoVerify(digest, sig, key, fails, dev);
    inner := Some(v);
    ret := v.ret;
  }
}

=== FILE: ectypes.dfy ===
/**
 * The data the EC builders work on: curves, keys and points as the big-number
 * library would report them, the op-data fields handed to the accelerator,
 * the allocations the glue makes, the library and allocator calls that can
 * fail, and the scripted accelerator.
 */
module EcTypes {
  import opened Common
  import opened Bytes
  import opened Offload

  /** The field type reported for the group's method. */
  datatype FieldType = PrimeField | BinaryField | OtherField

  datatype Point = Point(x: nat, y: nat)

  /**
   * A curve as the library reports it: field type, whether it is X25519, the
   * field modulus or polynomial p, the coefficients a and b, the order, the
   * degree in bits and the generator (absent when the group has none).
   */
  datatype Group = Group(field: FieldType, x25519: bool, p: nat, a: nat, b: nat,
                         order: nat, degree: nat, generator: Option<Point>)

  /** An EC_KEY: each part may be missing. */
  datatype EcKey = EcKey(group: Option<Group>, priv: Option<nat>, pub: Option<Point>)

  /** The op-data fields of the point-multiply, sign and verify requests. */
  datatype Slot = K | D | M | N | R | S | Xg | Yg | Xp | Yp | A | B | Q

  /** The two result buffers an accelerator request writes. */
  datatype Out = First | Second

  /** Coordinate big numbers of the key-generation consistency check. */
  datatype Coord = X | Y | Tx | Ty

  /** Everything the builders allocate. */
  datatype Res =
    | OpData                 // the request structure
    | BnCtx                  // the big-number context (its BN_CTX_get values go with it)
    | SigObject              // ECDSA_SIG_new
    | SigBn(part: Slot)      // the r and s BIGNUMs of a new signature
    | Field(slot: Slot)      // an op-data flat buffer
    | ResultHeader(out: Out) // a result CpaFlatBuffer structure
    | ResultData(out: Out)   // its data buffer
    | CallerBuffer(out: Out) // an output buffer given to the caller of compute-key
    | OrderBn                // key generation: the order
    | PrivKeyBn              // key generation: a new private key
    | PubKeyPoint            // key generation: a new public point
    | CoordBn(coord: Coord)  // key generation: coordinate big numbers

  /** Where a point's coordinates are read from. */
  datatype Source = Peer | Generator | PublicKey

  /** Every library or allocator call that can fail. */
  datatype Site =
    | OpDataAlloc | CtxAlloc | CtxGet | SigAlloc | SigBnAlloc(part: Slot)
    | OrderQuery | CurveQuery | AffineQuery(from: Source)
    | ToFlatAlloc(slot: Slot) | ZeroCoefficientAlloc
    | HeaderAlloc(out: Out) | DataAlloc(out: Out) | AsyncSetup
    | DigestLoad | DigestShift | OutputAlloc(out: Out)
    | OrderAlloc | PrivKeyAlloc | SetPrivateKey | PointAlloc | CoordAlloc(coord: Coord)
    | SetAffine | GetAffine | SetPublicKey
    | LoadResult(out: Out)            // BN_bin2bn of a result buffer into an existing number
    | SigDecodeAlloc | SigEncodeAlloc // the allocations inside d2i_ECDSA_SIG and i2d_ECDSA_SIG

  /**
   * EC_GROUP_get_order succeeds: the call itself does not fail, and the
   * order it copies out is not zero (a zero order is reported as failure).
   */
  predicate OrderReported(order: nat, fails: set<Site>)
  {
    OrderQuery !in fails && order != 0
  }

  /**
   * The scripted accelerator and scheduler for one request: the mode, the
   * submit-loop and wait-loop scripts, the verifyResult the callback
   * reports, and the bytes it writes into the two result buffers.
   */
  datatype Device = Device(mode: Mode, rounds: seq<Round>, polls: seq<Poll>, verified: bool,
                           first: seq<byte>, second: seq<byte>)
  {
    /** The scripts are long enough for both loops to leave. */
    predicate Ready()
    {
      Settles(mode, rounds) && WellConfigured(mode) && Completes(polls)
    }
  }

  /** The contents of a result buffer of len bytes after the accelerator wrote data into it. */
  function Fill(data: seq<byte>, len: nat): (buf: seq<byte>)
    ensures |buf| == len
    ensures |data| >= len ==> buf == data[..len]
    ensures forall i :: 0 <= i < len && i < |data| ==> buf[i] == data[i]
  {
    if |data| >= len then data[..len] else data + seq(len - |data|, _ => 0 as byte)
  }

  /** A CpaFlatBuffer: a data pointer (absent: NULL) and a length in bytes. */
  datatype FlatBuffer = FlatBuffer(data: Option<seq<byte>>, len: nat)

  /**
   * The flat buffer stands for the number v: either the empty buffer for
   * zero, or len big-endian bytes with that value.
   */
  predicate Denotes(fb: FlatBuffer, v: nat)
  {
    match fb.data
    case None => fb.len == 0 && v == 0
    case Some(d) => |d| == fb.len && BEValue(d) == v
  }

  /**
   * qat_BN_to_FB: zero becomes the empty buffer (no data, length 0), any
   * other number its big-endian bytes without leading zeros.
   */
  function FlatOf(v: nat): (fb: FlatBuffer)
  {
    if v == 0 then FlatBuffer(None, 0) else FlatBuffer(Some(MinimalBE(v)), |MinimalBE(v)|)
  }

  /** The coefficient a once the zero fix-up has allocated its byte: a zero is one byte 0. */
  function PaddedCoefficient(a: nat): (fb: FlatBuffer)
  {
    if a == 0 then FlatBuffer(Some([0]), 1) else FlatOf(a)
  }

  /**
   * The coefficient a as sign and verify submit it: padded, except that a
   * zero whose byte could not be allocated goes out as length 1 with no data.
   */
  function CoefficientA(a: nat, fixupFailed: bool): (fb: FlatBuffer)
  {
    if a == 0 && fixupFailed then FlatBuffer(None, 1) else PaddedCoefficient(a)
  }

  /** The conversion is faithful: the buffer stands for v, with no leading zero byte. */
  lemma FlatOfDenotes(v: nat)
    ensures Denotes(FlatOf(v), v)
    ensures FlatOf(v).data.Some? <==> v > 0
    ensures v > 0 ==> FlatOf(v).len >= 1 && FlatOf(v).data.value[0] != 0
  {
  }

  /** After the fix-up, a stands for the coefficient and is never empty. */
  lemma PaddedCoefficientDenotes(a: nat)
    ensures Denotes(PaddedCoefficient(a), a)
    ensures PaddedCoefficient(a).len >= 1
  {
    if a == 0 {
      var zero: seq<byte> := [0];
      assert zero[..0] == [];
      assert BEValue(zero) == 0;
    }
  }

  /**
   * The submitted a is never of length 0, and it stands for the coefficient
   * unless the fix-up's allocation failed.
   */
  lemma CoefficientADenotes(a: nat, fixupFailed: bool)
    ensures CoefficientA(a, fixupFailed).len >= 1
    ensures !(a == 0 && fixupFailed) <==> Denotes(CoefficientA(a, fixupFailed), a)
  {
    PaddedCoefficientDenotes(a);
  }
}

=== FILE: ledger.dfy ===
/**
 * Allocation accounting for the operation builders. Every allocation the
 * glue makes is an Acquire event and every free, cleansing free or hand-over
 * of ownership (to the caller, or to an enclosing object) is a Release event.
 * A log is disciplined when, replayed from the start, nothing is acquired
 * twice and nothing is released that is not live; it is balanced when, in
 * addition, nothing is left live at the end.
 */
module Ledger {
  import opened Common

  datatype How = Free | Cleanse | HandOver

  datatype Ev<R> = Acquire(res: R) | Release(res: R, how: How)

  /** What a replay knows: everything ever acquired, and what is live now. */
  datatype Replay<R> = Replay(seen: set<R>, live: set<R>)

  /** Replays a log; None as soon as it acquires a resource twice or releases a dead one. */
  function Run<R(==)>(log: seq<Ev<R>>): (r: Option<Replay<R>>)
    ensures r.Some? ==> r.value.live <= r.value.seen
  {
    if |log| == 0 then Some(Replay({}, {}))
    else
      match Run(log[..|log| - 1])
      case None => None
      case Some(st) =>
        match log[|log| - 1]
        case Acquire(x) =>
          if x in st.seen then None else Some(Replay(st.seen + {x}, st.live + {x}))
        case Release(x, _) =>
          if x in st.live then Some(Replay(st.seen, st.live - {x})) else None
  }

  /** Every acquired resource released exactly once, nothing released twice or unacquired. */
  predicate Balanced<R(==)>(log: seq<Ev<R>>)
  {
    Run(log).Some? && Run(log).value.live == {}
  }

  /** How many times x is acquired, and how many times released, in the log. */
  function Acquisitions<R(==)>(log: seq<Ev<R>>, x: R): (n: nat)
    ensures n <= |log|
  {
    if |log| == 0 then 0
    else Acquisitions(log[..|log| - 1], x) + (if log[|log| - 1] == Acquire(x) then 1 else 0)
  }

  function Releases<R(==)>(log: seq<Ev<R>>, x: R): (n: nat)
    ensures n <= |log|
  {
    if |log| == 0 then 0
    else Releases(log[..|log| - 1], x) + (if log[|log| - 1].Release? && log[|log| - 1].res == x then 1 else 0)
  }

  /**
   * A replay that succeeds counts each resource: acquired at most once, and
   * released exactly when it was acquired and is no longer live.
   */
  lemma {:induction false} RunCounts<R>(log: seq<Ev<R>>, x: R)
    requires Run(log).Some?
    ensures Acquisitions(log, x) == (if x in Run(log).value.seen then 1 else 0)
    ensures Releases(log, x) == (if x in Run(log).value.seen && x !in Run(log).value.live then 1 else 0)
  {
    if |log| > 0 {
      RunCounts(log[..|log| - 1], x);
    }
  }

  /** In a balanced log every acquired resource is released exactly once. */
  lemma BalancedReleasesOnce<R>(log: seq<Ev<R>>, x: R)
    requires Balanced(log)
    ensures Acquisitions(log, x) <= 1
    ensures Releases(log, x) == Acquisitions(log, x)
  {
    RunCounts(log, x);
  }
}

=== FILE: offload.dfy ===
/**
 * The submit/retry driver and the completion waiter shared by compute-key,
 * sign and verify. The accelerator, the instance pool and the async-job
 * scheduler are replaced by a script: one Round per pass of the submit loop
 * and one Poll per pass of the wait loop.
 *
 * Two modes exist. Without an async job (Blocking) a RETRY answer sleeps
 * pollInterval + (attempts mod divisor) microseconds, counts the attempt and
 * gives up once a finite retry ceiling is reached. Inside an async job
 * (Fiber) a RETRY answer wakes the job and pauses it; if either call reports
 * failure the request is failed.
 */
module Offload {
  import opened Common

  /** The three classes of answer from a submit call (any other status is Fail). */
  datatype Status = Success | Retry | Fail

  /** The configured message-retry count: the infinite marker, or a finite ceiling. */
  datatype Ceiling = Unbounded | AtMost(limit: int)

  datatype Mode =
    | Blocking(pollInterval: nat, divisor: nat, ceiling: Ceiling)
    | Fiber

  /**
   * What one pass of the submit loop sees: whether the pool handed out an
   * instance, the submit status, and the results of wake and pause (used only
   * in Fiber mode on RETRY).
   */
  datatype Round = Round(instance: bool, status: Status, woke: bool, paused: bool)

  /** Why the submit loop stopped. */
  datatype Outcome =
    | Accepted          // SUCCESS: the request is in flight
    | NoInstance        // the instance pool was empty
    | Refused           // the submit call failed
    | Exhausted         // Blocking: the retry ceiling was reached, status still RETRY
    | SchedulerFailed   // Fiber: wake or pause failed, status forced to FAIL

  /** The observable effect of the submit loop. */
  datatype Submission = Submission(outcome: Outcome, submissions: nat, sleeps: seq<nat>,
                                   wakes: nat, pauses: nat)

  /** Whether the loop leaves after the pass with this 0-based index. */
  predicate Stops(mode: Mode, r: Round, attempt: nat)
  {
    !r.instance || r.status != Retry ||
    match mode
    case Blocking(_, _, ceiling) => ceiling.AtMost? && attempt + 1 >= ceiling.limit
    case Fiber => !r.woke || !r.paused
  }

  /** The script ends with a pass that leaves the loop (so the script is long enough). */
  predicate Settles(mode: Mode, rounds: seq<Round>)
  {
    |rounds| > 0 && Stops(mode, rounds[|rounds| - 1], |rounds| - 1)
  }

  predicate WellConfigured(mode: Mode)
  {
    mode.Blocking? ==> mode.divisor > 0
  }

  /** Index of the first pass that leaves the loop. */
  function FirstStop(mode: Mode, rounds: seq<Round>, from: nat): (k: nat)
    requires from < |rounds| && Stops(mode, rounds[|rounds| - 1], |rounds| - 1)
    ensures from <= k < |rounds| && Stops(mode, rounds[k], k)
    ensures forall j :: from <= j < k ==> !Stops(mode, rounds[j], j)
    decreases |rounds| - from
  {
    if Stops(mode, rounds[from], from) then from else FirstStop(mode, rounds, from + 1)
  }

  /** The sleep lengths of the first n RETRY answers in Blocking mode. */
  function Backoff(pollInterval: nat, divisor: nat, n: nat): (s: seq<nat>)
    requires divisor > 0
    ensures |s| == n
    ensures forall j :: 0 <= j < n ==> s[j] == pollInterval + j % divisor
  {
    if n == 0 then [] else Backoff(pollInterval, divisor, n - 1) + [pollInterval + (n - 1) % divisor]
  }

  /** How a stopping pass is classified. */
  function Classify(mode: Mode, r: Round): Outcome
  {
    if !r.instance then NoInstance
    else if r.status == Success then Accepted
    else if r.status == Fail then Refused
    else if mode.Blocking? then Exhausted
    else SchedulerFailed
  }

  /**
   * The closed form of the submit loop: everything is determined by the
   * first stopping pass k. Every pass up to k that got an instance submitted;
   * every RETRY pass before k, and k itself if it is a RETRY, slept (Blocking)
   * or woke and paused (Fiber, pause only after a successful wake).
   */
  function Expected(mode: Mode, rounds: seq<Round>): Submission
    requires Settles(mode, rounds) && WellConfigured(mode)
  {
    var k := FirstStop(mode, rounds, 0);
    var last := rounds[k];
    var retried := if last.instance && last.status == Retry then k + 1 else k;
    match mode
    case Blocking(poll, div, _) =>
      Submission(Classify(mode, last), if last.instance then k + 1 else k,
                 Backoff(poll, div, retried), 0, 0)
    case Fiber =>
      Submission(Classify(mode, last), if last.instance then k + 1 else k, [],
                 retried, if last.instance && last.status == Retry && !last.woke then k else retried)
  }

  /** The submit loop: pass by pass over the script until a pass leaves it. */
  method SubmitWithRetry(mode: Mode, rounds: seq<Round>) returns (sub: Submission)
    requires Settles(mode, rounds) && WellConfigured(mode)
    ensures sub == Expected(mode, rounds)
  {
    var attempts := 0;
    var submissions := 0;
    var sleeps: seq<nat> := [];
    var wakes := 0;
    var pauses := 0;
    var i := 0;
    var outcome := Accepted;
    var stopped := false;
    while !stopped
      invariant 0 <= i <= |rounds|
      invariant !stopped ==> i < |rounds|
      invariant forall j :: 0 <= j < i ==> !Stops(mode, rounds[j], j) || (stopped && j == i - 1)
      invariant stopped ==> i >= 1 && Stops(mode, rounds[i - 1], i - 1)
      invariant stopped ==> outcome == Classify(mode, rounds[i - 1])
      invariant !stopped ==> submissions == i && wakes == (if mode.Fiber? then i else 0)
      invariant !stopped ==> pauses == wakes
      invariant mode.Blocking? ==> attempts == |sleeps| && sleeps == Backoff(mode.pollInterval, mode.divisor, attempts)
      invariant mode.Fiber? ==> sleeps == [] && attempts == 0
      invariant !stopped && mode.Blocking? ==> attempts == i
      invariant stopped ==> var last := rounds[i - 1];
        var retried := if last.instance && last.status == Retry then i else i - 1;
        submissions == (if last.instance then i else i - 1) &&
        (mode.Blocking? ==> attempts == retried && wakes == 0 && pauses == 0) &&
        (mode.Fiber? ==> (wakes == retried &&
          pauses == (if last.instance && last.status == Retry && !last.woke then i - 1 else retried)))
      decreases |rounds| - i, if stopped then 0 else 1
    {
      var r := rounds[i];
      i := i + 1;
      if !r.instance {
        outcome := NoInstance;
        stopped := true;
      } else {
        submissions := submissions + 1;
        var status := r.status;
        if status == Retry {
          match mode {
            case Blocking(poll, div, ceiling) =>
              sleeps := sleeps + [poll + attempts % div];
              attempts := attempts + 1;
              if ceiling.AtMost? && attempts >= ceiling.limit {
                outcome := Exhausted;
                stopped := true;
              }
            case Fiber =>
              wakes := wakes + 1;
              if !r.woke {
                status := Fail;
              } else {
                pauses := pauses + 1;
                if !r.paused {
                  status := Fail;
                }
              }
              if status == Fail {
                outcome := SchedulerFailed;
                stopped := true;
              }
          }
        } else {
          outcome := if status == Success then Accepted else Refused;
          stopped := true;
        }
      }
    }
    sub := Submission(outcome, submissions, sleeps, wakes, pauses);
    assert FirstStop(mode, rounds, 0) == i - 1;
  }

  /* ---------------------------------------------------------------------- */
  /* Properties of the submit loop                                          */
  /* ---------------------------------------------------------------------- */

  /** With a finite ceiling M the request is submitted at most max(M, 1) times. */
  lemma CeilingBoundsSubmissions(poll: nat, div: nat, limit: int, rounds: seq<Round>)
    requires div > 0 && Settles(Blocking(poll, div, AtMost(limit)), rounds)
    ensures Expected(Blocking(poll, div, AtMost(limit)), rounds).submissions <= Max(limit, 1)
  {
    var mode := Blocking(poll, div, AtMost(limit));
    var k := FirstStop(mode, rounds, 0);
    var j := Max(limit, 1) - 1;
    if j < |rounds| {
      assert Stops(mode, rounds[j], j);
    }
  }

  /** N busy answers: the (N+1)-th submission succeeds, after N sleeps on the backoff schedule. */
  lemma BusyThenAccepted(mode: Mode, rounds: seq<Round>, n: nat)
    requires mode.Blocking? && WellConfigured(mode)
    requires mode.ceiling.AtMost? ==> mode.ceiling.limit > n
    requires |rounds| == n + 1 && rounds[n].instance && rounds[n].status == Success
    requires forall j :: 0 <= j < n ==> rounds[j].instance && rounds[j].status == Retry
    ensures Settles(mode, rounds)
    ensures Expected(mode, rounds).outcome == Accepted
    ensures Expected(mode, rounds).submissions == n + 1
    ensures Expected(mode, rounds).sleeps == Backoff(mode.pollInterval, mode.divisor, n)
  {
    var k := FirstStop(mode, rounds, 0);
  }

  /** Once the ceiling M >= 1 is reached with RETRY answers only, the request fails as Exhausted. */
  lemma CeilingReachedFails(poll: nat, div: nat, limit: nat, rounds: seq<Round>)
    requires div > 0 && limit >= 1 && |rounds| == limit
    requires forall j :: 0 <= j < limit ==> rounds[j].instance && rounds[j].status == Retry
    ensures Settles(Blocking(poll, div, AtMost(limit)), rounds)
    ensures Expected(Blocking(poll, div, AtMost(limit)), rounds)
         == Submission(Exhausted, limit, Backoff(poll, div, limit), 0, 0)
  {
    var mode := Blocking(poll, div, AtMost(limit));
    var k := FirstStop(mode, rounds, 0);
  }

  /** An empty instance pool fails the request at once, whatever the attempt. */
  lemma EmptyPoolFailsAtOnce(mode: Mode, rounds: seq<Round>, k: nat)
    requires WellConfigured(mode) && k < |rounds| && !rounds[k].instance
    requires forall j :: 0 <= j < k ==> !Stops(mode, rounds[j], j)
    requires Settles(mode, rounds)
    ensures Expected(mode, rounds).outcome == NoInstance
    ensures Expected(mode, rounds).submissions == k
  {
    var f := FirstStop(mode, rounds, 0);
  }

  /**
   * Fiber mode: a failed wake skips the pause; a failed wake or pause stops
   * submitting, with status FAIL.
   */
  lemma FiberWakeFailureStops(rounds: seq<Round>, k: nat)
    requires k < |rounds| && rounds[k].instance && rounds[k].status == Retry
    requires !rounds[k].woke || !rounds[k].paused
    requires forall j :: 0 <= j < k ==> !Stops(Fiber, rounds[j], j)
    requires Settles(Fiber, rounds)
    ensures Expected(Fiber, rounds).outcome == SchedulerFailed
    ensures Expected(Fiber, rounds).submissions == k + 1
    ensures Expected(Fiber, rounds).wakes == k + 1
    ensures Expected(Fiber, rounds).pauses == (if rounds[k].woke then k + 1 else k)
  {
    var f := FirstStop(Fiber, rounds, 0);
  }

  /** Fiber mode never sleeps and has no ceiling: RETRY passes go on while wake and pause succeed. */
  lemma FiberNeverSleeps(rounds: seq<Round>)
    requires Settles(Fiber, rounds)
    ensures Expected(Fiber, rounds).sleeps == []
    ensures Expected(Fiber, rounds).outcome != Exhausted
  {
  }

  function Sum(s: seq<nat>): nat
  {
    if |s| == 0 then 0 else Sum(s[..|s| - 1]) + s[|s| - 1]
  }

  /** The backoff term stays below the divisor: n sleeps last between n*poll and n*(poll+divisor-1). */
  lemma {:induction false} BackoffTotal(poll: nat, div: nat, n: nat)
    requires div > 0
    ensures n * poll <= Sum(Backoff(poll, div, n)) <= n * (poll + div - 1)
  {
    if n > 0 {
      var s := Backoff(poll, div, n);
      assert s[..n - 1] == Backoff(poll, div, n - 1);
      BackoffTotal(poll, div, n - 1);
      assert Sum(s) == Sum(s[..n - 1]) + s[n - 1];
      assert poll <= s[n - 1] <= poll + div - 1;
      assert n * poll == (n - 1) * poll + poll;
      assert n * (poll + div - 1) == (n - 1) * (poll + div - 1) + (poll + div - 1);
    }
  }

  /* ---------------------------------------------------------------------- */
  /* The completion waiter                                                  */
  /* ---------------------------------------------------------------------- */

  /** One pass of the wait loop: the result of pause (Fiber only) and the done flag observed after it. */
  datatype Poll = Poll(paused: bool, done: bool)

  datatype Waiting = Waiting(iterations: nat, pauses: nat, yielded: nat)

  /** The script ends with the completion being observed. */
  predicate Completes(polls: seq<Poll>)
  {
    |polls| > 0 && polls[|polls| - 1].done
  }

  function FirstDone(polls: seq<Poll>, from: nat): (k: nat)
    requires from < |polls| && polls[|polls| - 1].done
    ensures from <= k < |polls| && polls[k].done
    ensures forall j :: from <= j < k ==> !polls[j].done
    decreases |polls| - from
  {
    if polls[from].done then from else FirstDone(polls, from + 1)
  }

  /** Number of failed pauses among the polls. */
  function FailedPauses(polls: seq<Poll>): (n: nat)
    ensures n <= |polls|
  {
    if |polls| == 0 then 0
    else FailedPauses(polls[..|polls| - 1]) + (if polls[|polls| - 1].paused then 0 else 1)
  }

  /**
   * The wait loop: in Fiber mode pause the job each pass (yielding when the
   * pause fails), otherwise yield; leave only once done is observed.
   */
  method WaitForCompletion(fiber: bool, polls: seq<Poll>) returns (w: Waiting)
    requires Completes(polls)
    ensures w.iterations == FirstDone(polls, 0) + 1
    ensures fiber ==> w.pauses == w.iterations && w.yielded == FailedPauses(polls[..w.iterations])
    ensures !fiber ==> w.pauses == 0 && w.yielded == w.iterations
  {
    var i := 0;
    var pauses := 0;
    var yielded := 0;
    var done := false;
    while !done
      invariant 0 <= i <= |polls|
      invariant !done ==> i < |polls| && forall j :: 0 <= j < i ==> !polls[j].done
      invariant done ==> i >= 1 && polls[i - 1].done && forall j :: 0 <= j < i - 1 ==> !polls[j].done
      invariant fiber ==> pauses == i && yielded == FailedPauses(polls[..i])
      invariant !fiber ==> pauses == 0 && yielded == i
      decreases |polls| - i, if done then 0 else 1
    {
      var p := polls[i];
      assert polls[..i + 1][..i] == polls[..i];
      if fiber {
        pauses := pauses + 1;
        if !p.paused {
          yielded := yielded + 1;
        }
      } else {
        yielded := yielded + 1;
      }
      i := i + 1;
      done := p.done;
    }
    w := Waiting(i, pauses, yielded);
    assert FirstDone(polls, 0) == i - 1;
  }

  /** A failing pause never ends the wait: only the done flags decide how long it lasts. */
  lemma WaitIgnoresPauseResults(p1: seq<Poll>, p2: seq<Poll>)
    requires Completes(p1) && Completes(p2) && |p1| == |p2|
    requires forall j :: 0 <= j < |p1| ==> p1[j].done == p2[j].done
    ensures FirstDone(p1, 0) == FirstDone(p2, 0)
  {
    var k1 := FirstDone(p1, 0);
    var k2 := FirstDone(p2, 0);
  }
}

=== FILE: params.dfy ===
/**
 * Assembly of the accelerator's parameters: big numbers to flat buffers, the
 * zero-coefficient fix-up, scalar sampling by rejection, and the sizes of the
 * result buffers.
 */
module Params {
  import opened Common
  import opened Bytes
  import opened EcTypes
  import opened Books

  /**
   * qat_BN_to_FB: zero becomes the empty buffer with no allocation; any other
   * value is written, without leading zero bytes, into a newly allocated
   * buffer (which may fail).
   */
  method ToFlat(a: Arena, fails: set<Site>, slot: Slot, v: nat)
    returns (ok: bool, fb: FlatBuffer, b: Arena)
    requires a.Valid() && a.top < Rank(a.op, Field(slot))
    ensures b.Valid() && b.op == a.op && a.top <= b.top <= Rank(a.op, Field(slot))
    ensures ok <==> v == 0 || ToFlatAlloc(slot) !in fails
    ensures ok ==> fb == FlatOf(v)
    ensures fb.data.None? ==> b.top == a.top
  {
    if v == 0 {
      return true, FlatBuffer(None, 0), a;
    }
    if ToFlatAlloc(slot) in fails {
      return false, FlatBuffer(None, 0), a;
    }
    ok, fb := true, FlatOf(v);
    b := Take(a, Field(slot));
  }

  /**
   * A zero coefficient a arrives as the empty buffer; the accelerator wants
   * one byte holding 0. When that byte cannot be allocated, compute-key gives
   * up (abortOnFailure) while sign and verify carry on with a buffer of
   * length 1 and no data.
   */
  method FixZeroCoefficient(a: Arena, fails: set<Site>, fb: FlatBuffer, v: nat, abortOnFailure: bool)
    returns (ok: bool, fixed: FlatBuffer, b: Arena)
    requires a.Valid() && fb == FlatOf(v)
    requires v == 0 ==> a.top < Rank(a.op, Field(A))
    ensures b.Valid() && b.op == a.op && a.top <= b.top
    ensures v == 0 ==> b.top <= Rank(a.op, Field(A))
    ensures v > 0 ==> b == a
    ensures !ok <==> abortOnFailure && v == 0 && ZeroCoefficientAlloc in fails
    ensures ok && (v > 0 || ZeroCoefficientAlloc !in fails) ==> fixed == PaddedCoefficient(v)
    ensures ok && v == 0 && ZeroCoefficientAlloc in fails ==> fixed == FlatBuffer(None, 1)
  {
    if fb.data.Some? || fb.len != 0 {
      return true, fb, a;
    }
    if ZeroCoefficientAlloc in fails {
      if abortOnFailure {
        return false, fb, a;
      }
      return true, FlatBuffer(None, 1), a;
    }
    ok, fixed := true, FlatBuffer(Some([0]), 1);
    b := Take(a, Field(A));
  }

  /**
   * The coordinates of a point as the fields sx and sy: the base point of a
   * request (the peer's point for compute-key, the generator for sign and
   * verify) as xg and yg, the public key of verify as xp and yp.
   */
  method PointFields(a: Arena, fails: set<Site>, pt: Point, sx: Slot, sy: Slot)
    returns (ok: bool, fx: FlatBuffer, fy: FlatBuffer, b: Arena)
    requires a.Valid() && a.top < Rank(a.op, Field(sx)) && Rank(a.op, Field(sx)) < Rank(a.op, Field(sy))
    ensures b.Valid() && b.op == a.op && a.top <= b.top <= Rank(a.op, Field(sy))
    ensures ok <==> (pt.x == 0 || ToFlatAlloc(sx) !in fails) && (pt.y == 0 || ToFlatAlloc(sy) !in fails)
    ensures ok ==> fx == FlatOf(pt.x) && fy == FlatOf(pt.y)
  {
    fy := FlatBuffer(None, 0);
    ok, fx, b := ToFlat(a, fails, sx, pt.x);
    if !ok {
      return;
    }
    ok, fy, b := ToFlat(b, fails, sy, pt.y);
  }

  /**
   * The curve coefficients a (with the zero fix-up) and b and the field
   * modulus q. abortOnFailure is how the caller treats a failed fix-up.
   */
  method CoefficientFields(a: Arena, fails: set<Site>, g: Group, abortOnFailure: bool)
    returns (ok: bool, fa: FlatBuffer, fb: FlatBuffer, fq: FlatBuffer, b: Arena)
    requires a.Valid() && a.top < Rank(a.op, Field(A))
    requires Rank(a.op, Field(A)) < Rank(a.op, Field(B)) < Rank(a.op, Field(Q))
    ensures b.Valid() && b.op == a.op && a.top <= b.top <= Rank(a.op, Field(Q))
    ensures ok <==> (g.a == 0 || ToFlatAlloc(A) !in fails) &&
                    !(abortOnFailure && g.a == 0 && ZeroCoefficientAlloc in fails) &&
                    (g.b == 0 || ToFlatAlloc(B) !in fails) && (g.p == 0 || ToFlatAlloc(Q) !in fails)
    ensures ok ==> fb == FlatOf(g.b) && fq == FlatOf(g.p)
    ensures ok && (g.a != 0 || ZeroCoefficientAlloc !in fails) ==> fa == PaddedCoefficient(g.a)
    ensures ok && g.a == 0 && ZeroCoefficientAlloc in fails ==> fa == FlatBuffer(None, 1)
    ensures ok ==> fa == CoefficientA(g.a, ZeroCoefficientAlloc in fails)
  {
    fb, fq := FlatBuffer(None, 0), FlatBuffer(None, 0);
    ok, fa, b := ToFlat(a, fails, A, g.a);
    if !ok {
      return;
    }
    ok, fa, b := FixZeroCoefficient(b, fails, fa, g.a, abortOnFailure);
    if !ok {
      return;
    }
    ok, fb, b := ToFlat(b, fails, B, g.b);
    if !ok {
      return;
    }
    ok, fq, b := ToFlat(b, fails, Q, g.p);
  }

  /**
   * The two result buffers of compute-key and sign: a header and len bytes of
   * data for the first, then the same for the second.
   */
  method ResultBuffers(a: Arena, fails: set<Site>) returns (ok: bool, b: Arena)
    requires a.Valid() && a.top < Rank(a.op, ResultHeader(First))
    requires Rank(a.op, ResultHeader(First)) < Rank(a.op, ResultData(First)) <
             Rank(a.op, ResultHeader(Second)) < Rank(a.op, ResultData(Second))
    ensures b.Valid() && b.op == a.op && a.top <= b.top <= Rank(a.op, ResultData(Second))
    ensures ok <==> HeaderAlloc(First) !in fails && DataAlloc(First) !in fails &&
                    HeaderAlloc(Second) !in fails && DataAlloc(Second) !in fails
  {
    ok, b := false, a;
    if HeaderAlloc(First) in fails { return; }
    b := Take(b, ResultHeader(First));
    if DataAlloc(First) in fails { return; }
    b := Take(b, ResultData(First));
    if HeaderAlloc(Second) in fails { return; }
    b := Take(b, ResultHeader(Second));
    if DataAlloc(Second) in fails { return; }
    b := Take(b, ResultData(Second));
    ok := true;
  }

  /* ---------------------------------------------------------------------- */
  /* Rejection sampling of scalars                                          */
  /* ---------------------------------------------------------------------- */

  /** One call of BN_rand_range(order): a failure, or a value in [0, order). */
  datatype Draw = RandFailed | Drew(value: nat)

  datatype Sample = Sampled(value: nat, used: nat) | SampleFailed(used: nat)

  /** The random source keeps to BN_rand_range's range. */
  predicate InRange(draws: seq<Draw>, order: nat)
  {
    forall i :: 0 <= i < |draws| && draws[i].Drew? ==> draws[i].value < order
  }

  /** The draw that ends the loop: a failure or a non-zero value. */
  predicate Ends(d: Draw)
  {
    d.RandFailed? || d.value != 0
  }

  predicate DrawsEnd(draws: seq<Draw>)
  {
    |draws| > 0 && Ends(draws[|draws| - 1])
  }

  function FirstEnd(draws: seq<Draw>, from: nat): (k: nat)
    requires from < |draws| && Ends(draws[|draws| - 1])
    ensures from <= k < |draws| && Ends(draws[k])
    ensures forall j :: from <= j < k ==> draws[j] == Drew(0)
    decreases |draws| - from
  {
    if Ends(draws[from]) then from else FirstEnd(draws, from + 1)
  }

  /**
   * Draws until the value is non-zero; a failed draw fails the operation.
   * The scalar (private key or nonce) is the first non-zero draw.
   */
  method SampleScalar(order: nat, draws: seq<Draw>) returns (s: Sample)
    requires InRange(draws, order) && DrawsEnd(draws)
    ensures s.Sampled? ==> 1 <= s.value < order
    ensures s.used == FirstEnd(draws, 0) + 1
    ensures s.Sampled? <==> draws[s.used - 1].Drew?
    ensures s.Sampled? ==> s.value == draws[s.used - 1].value
  {
    var i := 0;
    while true
      invariant 0 <= i < |draws|
      invariant forall j :: 0 <= j < i ==> draws[j] == Drew(0)
      decreases |draws| - i
    {
      match draws[i] {
        case RandFailed =>
          assert FirstEnd(draws, 0) == i;
          return SampleFailed(i + 1);
        case Drew(v) =>
          if v != 0 {
            assert FirstEnd(draws, 0) == i;
            return Sampled(v, i + 1);
          }
      }
      i := i + 1;
    }
  }

  /* ---------------------------------------------------------------------- */
  /* Result buffer sizes                                                    */
  /* ---------------------------------------------------------------------- */

  /** Compute-key: (degree + 7) / 8 bytes, the degree rounded up to whole bytes. */
  function EcdhBuflen(degree: nat): (n: nat)
    ensures 8 * n >= degree && 8 * n < degree + 8
  {
    (degree + 7) / 8
  }

  /**
   * Sign: the buffers get as many bytes as the degree has bits, eight times
   * the bytes a coordinate needs (give or take the rounding).
   */
  function SignBuflen(degree: nat): (n: nat)
    ensures n >= 8 * EcdhBuflen(degree) - 7
    ensures n < 8 * EcdhBuflen(degree) + 1
  {
    degree
  }
}
